=== FILE: README.md ===
# Tempest view renderer, modelled in Dafny

This project models the view renderer of the Tempest PHP framework, together
with its two slot value types.

- **`ViewRenderer`** turns a `View` into HTML in these steps:
  1. It locates the template, or takes the path as inline markup.
  2. It parses the content inside a synthetic `<div>`.
  3. It applies every attribute bottom-up through the attribute factory.
  4. It renders the wrapper's children and trims the result.
- **Rendering** dispatches over a closed set of element variants:
  - collections and slots join their members with newlines;
  - text elements interpolate `{{ $expr }}`;
  - empty elements render as nothing;
  - generic elements serialise as tags, unless a view component is registered for the tag.
- **View components.** When a component is registered for the tag, the component's output is scanned for `<x-slot/>` and `<x-slot name="…"/>` placeholders. Each one is filled with the rendering of the slot captured under that name.
- **`Slot`** is the immutable value a component invocation captures for one named block. It has `__get` and `__set_state`.
- **`SlotElement`** is the named slot node. Its `matches` is an exact name comparison.

The model is functional. Elements form an immutable datatype and rendering is a set of mutually recursive functions. Every collaborator whose code is not part of this model is a function-typed field of the `ViewRenderer` datatype:
- the DOM parser with `ElementFactory`;
- `AttributeFactory` and `Attribute::apply`;
- the container;
- the component's own `render`;
- `GenericElement::getSlot`, as a test of which children are captured as a slot;
- `file_exists` and `path()`;
- `eval` and `include` of a template.

`View::eval` is likewise a field of `View`.

Both regular expressions are modelled with PCRE's own semantics: leftmost match, greedy `\s*`, a lazy `.*?` that does not cross a line feed, and no `u` modifier. Each is written as:
- a declarative `Matches` predicate;
- a `MatchAt` function proved to report a match exactly when one exists, and to report the one PCRE picks;
- a generic scanner (`Scanner.Scan`) that plays the part of `preg_replace_callback`.

Modules, one per file:
- `Wrappers`: `Option`, `Result`.
- `Strings`: `implode`, `trim`, `ltrim`, the character classes.
- `Elements`: attribute values, `View`, the element tree, the slot lookup.
- `Scanner`: the scan `preg_replace_callback` performs.
- `Interpolation`: the `{{ $expr }}` pattern and `renderTextElement`.
- `Placeholders`: the `<x-slot …/>` pattern.
- `Renderer`: the dispatch, tag serialisation, component substitution and the join rules.
- `Application`: `applyAttributes`.
- `Views`: `render` and `resolveContent`.
- `Slots`: `Slot`.
- `SlotElements`: `SlotElement`.

Where the code and the natural reading of it differ, the model follows the code:
- **Leading space before attributes.** A generic tag puts a space before its attributes when the *joined attribute string* is non-empty, not when the attribute list is non-empty. The two differ only for a lone attribute with an empty name and a falsy value (`Renderer.AttributeStringSpaced`, `Renderer.AttributeStringEmptyName`).
- **Stripping `$`.** `ltrim($eval, '$')` strips *every* leading `$`, not just one (`Interpolation.Evaluate`).
- **Name of the bare placeholder.** A `<x-slot/>` placeholder with no name looks up the slot `"slot"`, while `Slot::DEFAULT` is `"default"` (`Renderer.BareSlotFilled`).

## Model

| member | source | states |
|---|---|---|
| Views.Render | src/Tempest/View/ViewRenderer.php:31-51 | A null view renders as ''. Rendering fails with `ViewNotFound` exactly when the content cannot be resolved. A successful rendering neither starts nor ends with a character `trim` removes. |
| Views.WrapperNotEmitted | src/Tempest/View/ViewRenderer.php:41-50 | The synthetic `<div>` never reaches the output. The result is the wrapper's children, each resolved, rendered back to back with nothing between, then trimmed. |
| Views.WrapperExample | src/Tempest/View/ViewRenderer.php:41-50 | Content parsed to a `<div>` holding the text ` Hi ` renders as `Hi`: no wrapper tags, padding trimmed. |
| Views.DivRendersTags | src/Tempest/View/ViewRenderer.php:234-261 | The same `<div>`, rendered as an ordinary element, does carry its tags. This is the contrast the wrapper rule removes. |
| Views.Candidates | src/Tempest/View/ViewRenderer.php:113-118 | The locations searched are the path itself, then each discovery root joined with the original path, in root order. |
| Views.FirstExisting | src/Tempest/View/ViewRenderer.php:115-122 | The search succeeds exactly when some candidate exists. It returns the first existing candidate, with every earlier one missing. On failure the error names the last candidate. |
| Views.Locate | src/Tempest/View/ViewRenderer.php:113-122 | The template file for a `.php` path is found exactly when some candidate exists. It is the first existing candidate in search order, and every candidate before it is missing. When none exists the error names the last candidate. |
| Views.SkipsMissing | src/Tempest/View/ViewRenderer.php:115-118 | Candidates known to be missing do not change the outcome of the search. |
| Views.LocateTemplate | src/Tempest/View/ViewRenderer.php:113-122 | The source's `while` loop over the discovery roots computes the same result as the search above. |
| Views.ResolveContent | src/Tempest/View/ViewRenderer.php:100-129 | A path not ending in `.php` is run as inline markup. Otherwise resolution succeeds exactly when some candidate exists, and the content is the output of including the file `Views.Locate` finds, the first existing candidate. A failure names the last discovery root joined with the path, or the path itself when there are no roots. |
| Views.MissingTemplateFails | src/Tempest/View/ViewRenderer.php:120-122 | A `.php` view that no candidate holds fails to render, with the error naming the last location tried. |
| Views.ExistingPathWins | src/Tempest/View/ViewRenderer.php:115 | An existing view path is used as it is, before any discovery root is tried. |
| Renderer.ResolveViewComponent | src/Tempest/View/ViewRenderer.php:131-145 | There is no component exactly when the tag is unregistered or registered with a falsy class name. A registered instance is returned as it is. A class name is resolved through the container. |
| Renderer.Message | src/Tempest/View/ViewRenderer.php:121 | The not-found message is `View `, the path, then ` not found`. |
| Renderer.MessageNamesPath | src/Tempest/View/ViewRenderer.php:121 | Different missing paths give different messages: the message determines the path. |
| Renderer.RenderElement | src/Tempest/View/ViewRenderer.php:65-98 | The dispatch: an empty element renders as '', a text element as its interpolated text, and a generic element with a component as the component's output with its placeholders substituted. `Renderer.JoinEdges`, `Renderer.CollectionAppend` and `Renderer.SlotAppend` give the newline joins of collections and slots. `Renderer.GenericTagPair` and `Renderer.UnregisteredTagRendersGeneric` give the tag form of a generic element without a component. |
| Renderer.RenderElements | src/Tempest/View/ViewRenderer.php:54-63 | No elements render as ''. A lone element renders as itself. `Renderer.RenderElementsAppend` gives the general case: concatenation with nothing between. |
| Renderer.AttributePiece | src/Tempest/View/ViewRenderer.php:246-252 | A piece starts with the attribute's name. It is the bare name exactly when the value is falsy. For a truthy value, `="value"` follows the name. |
| Renderer.AttributeString | src/Tempest/View/ViewRenderer.php:244-258 | The attribute part of a tag is empty or starts with a space. No attributes give ''. A list whose last attribute has a name never gives ''. |
| Renderer.AttributeStringSpaced | src/Tempest/View/ViewRenderer.php:244-258 | The attribute part of a tag agrees with an independent definition, one space before each attribute in insertion order, for every list except a lone attribute with an empty name and a falsy value. On that one list the two differ. |
| Renderer.AttributeStringEmptyName | src/Tempest/View/ViewRenderer.php:254-258 | The leading space depends on the joined string and not on the list. A lone unnamed falsy attribute produces no space, whereas the spaced-list reading would produce one. |
| Renderer.AttributeStringTruthiness | src/Tempest/View/ViewRenderer.php:246-252 | A truthy value serialises as `name="value"`. A falsy one (`'0'`) is kept as the bare name, not dropped. |
| Renderer.UnregisteredTagRendersGeneric | src/Tempest/View/ViewRenderer.php:83-88 | A generic element whose tag has no component serialises as `<tag attrs>children</tag>`: one space before each attribute, the children concatenated with nothing between. The only exception is a lone attribute with an empty name and a falsy value. |
| Renderer.GenericTagPair | src/Tempest/View/ViewRenderer.php:234-261 | For any attributes, a generic element without a component opens with `<tag`, closes with `</tag>`, and has the rendering of its children right before the closing tag. |
| Renderer.AttributePieces | src/Tempest/View/ViewRenderer.php:246-252 | One serialised piece per attribute, in insertion order. |
| Renderer.RenderAll | src/Tempest/View/ViewRenderer.php:54-63 | One rendering per element, in order, each the rendering of that element alone. |
| Renderer.RenderAllAppend | src/Tempest/View/ViewRenderer.php:56-60 | Rendering a list splits over any cut of the list. |
| Renderer.RenderElementsAppend | src/Tempest/View/ViewRenderer.php:54-63 | Top-level and generic children are concatenated with nothing between: the output of `a + b` is the output of `a` followed by that of `b`. |
| Renderer.CollectionAppend | src/Tempest/View/ViewRenderer.php:187-196 | A collection renders its members in order with exactly one newline between neighbours. |
| Renderer.SlotAppend | src/Tempest/View/ViewRenderer.php:222-231 | A slot element renders its children in order with exactly one newline between neighbours. |
| Renderer.JoinEdges | src/Tempest/View/ViewRenderer.php:187-231 | A lone member gets no newline. An empty collection or slot renders as ''. An empty element renders as ''. |
| Renderer.PlainTextUnchanged | src/Tempest/View/ViewRenderer.php:170-185 | A text element without `{{` renders as its text unchanged. |
| Renderer.Substitute | src/Tempest/View/ViewRenderer.php:198-215 | `preg_replace_callback`'s replacement over the scanned component output, with no contract of its own. `Renderer.SubstituteAppend` makes it piecewise. `Renderer.SubstituteChars` copies text through, and `Renderer.SubstituteNothing` gives back the text verbatim when no placeholder finds a slot. |
| Renderer.SubstituteAppend | src/Tempest/View/ViewRenderer.php:200-214 | Substitution over two runs of pieces is the substitution of the first run followed by that of the second. |
| Renderer.Fill | src/Tempest/View/ViewRenderer.php:203-211 | A placeholder whose name no child of the invocation is captured under stays as its own matched text. |
| Renderer.SubstituteChars | src/Tempest/View/ViewRenderer.php:200-214 | Component output outside placeholders is copied through unchanged. |
| Renderer.SubstituteNothing | src/Tempest/View/ViewRenderer.php:205-209 | When no placeholder names a captured slot, substitution gives back the scanned text verbatim. |
| Renderer.ComponentWithoutSlots | src/Tempest/View/ViewRenderer.php:198-215 | A component invoked with no captured slots renders exactly as the component's own output. |
| Renderer.SubstituteOnePiece | src/Tempest/View/ViewRenderer.php:202-212 | Substituting over text with one placeholder copies the text around it and replaces only the placeholder. |
| Renderer.SubstituteOneTag | src/Tempest/View/ViewRenderer.php:200-214 | One placeholder in component output becomes the rendering of the slot it names, or stays as written when that slot is missing. The text around it is unchanged. |
| Renderer.ComponentOneTag | src/Tempest/View/ViewRenderer.php:90-94 | A generic element whose component outputs one placeholder amid `<`-free text renders as that text with the placeholder filled. |
| Renderer.NamedSlotFilled | src/Tempest/View/ViewRenderer.php:203-211 | `<x-slot name="N"/>` is replaced by the rendering of the slot captured under `N`. |
| Renderer.MissingSlotVerbatim | src/Tempest/View/ViewRenderer.php:205-209 | `<x-slot name="N"/>` for an uncaptured `N` leaves the component output exactly as written. |
| Renderer.BareSlotFilled | src/Tempest/View/ViewRenderer.php:203 | `<x-slot/>` is replaced by the rendering of the slot captured under `"slot"`. |
| Placeholders.MatchAt | src/Tempest/View/ViewRenderer.php:201 | The placeholder pattern's match at a position: reported only if it matches, the only match there, and none exactly when the pattern cannot match there. |
| Placeholders.SlotName | src/Tempest/View/ViewRenderer.php:203 | The slot a match asks for: its `name` capture, or `"slot"` when the optional group did not take part. Its meaning is stated by `Placeholders.SlotNameOfMatch`. |
| Placeholders.SlotNameOfMatch | src/Tempest/View/ViewRenderer.php:201-203 | A bare match asks for `"slot"`. A named match asks for the non-empty run of word characters that sits between `name="` and the closing quote. |
| Placeholders.NamedBounds | src/Tempest/View/ViewRenderer.php:201 | In a named placeholder, the greedy `\s*` and `\w+` fix where the name starts, where it ends and where the match ends. |
| Placeholders.Find | src/Tempest/View/ViewRenderer.php:201 | A reported match is non-empty and ends within the component output. |
| Placeholders.PiecesAreMatches | src/Tempest/View/ViewRenderer.php:200-203 | Every replaced stretch of component output is a genuine match of the pattern, carrying the name it captured, or `"slot"` when it has none. |
| Placeholders.PieceAt | src/Tempest/View/ViewRenderer.php:200-214 | A piece of the scanned output starts where the text of the earlier pieces ends. It is a copied character exactly when no placeholder starts there; otherwise it is the one placeholder there, with the name it asks for. |
| Placeholders.PiecesWithoutTags | src/Tempest/View/ViewRenderer.php:200-214 | Output without `<` holds no placeholder and is copied character by character. |
| Placeholders.BarePlaceholderFound | src/Tempest/View/ViewRenderer.php:201-203 | `<x-slot/>` is matched whole where it starts and asks for the slot `"slot"`. |
| Placeholders.NamedPlaceholderFound | src/Tempest/View/ViewRenderer.php:201-203 | `<x-slot name="N"/>` with a word-character name is matched whole where it starts and asks for the slot `N`. |
| Placeholders.OneTagPieces | src/Tempest/View/ViewRenderer.php:200-214 | Output with one placeholder amid `<`-free text scans as the text before it, the placeholder, then the text after it. |
| Scanner.ScanSpellsSubject | src/Tempest/View/ViewRenderer.php:172-184 | The scan loses, adds and reorders nothing: its pieces spell out the subject. |
| Scanner.Scan | src/Tempest/View/ViewRenderer.php:172-184 | The scan yields at most one piece per character of the subject, and no pieces exactly at its end. `Scanner.ScanSpellsSubject`, `Scanner.ScanPieceAt` and `Scanner.ScanFoundAreMatches` give what the pieces are. |
| Scanner.ScanPieceAt | src/Tempest/View/ViewRenderer.php:172-184 | The piece at index `n` starts where the text of the earlier pieces ends. It is a copied character exactly when no match starts there; otherwise it is the match found there. No position where a match starts is skipped. |
| Scanner.ScanCopiesUnmatched | src/Tempest/View/ViewRenderer.php:172-184 | Where no match starts, the subject is copied one character at a time. |
| Scanner.ScanOneMatch | src/Tempest/View/ViewRenderer.php:200-214 | A subject with exactly one match scans as the characters before it, the match, then the characters after it. |
| Scanner.ScanFoundAreMatches | src/Tempest/View/ViewRenderer.php:172-184 | Every match piece is a match the pattern reports at the position where the piece starts. |
| Interpolation.Shortest | src/Tempest/View/ViewRenderer.php:173 | The lazy `.*?` stops at the first expression end after which spaces and `}}` follow. Every other match with the same `$` ends its expression no earlier. |
| Interpolation.NotEndingAt | src/Tempest/View/ViewRenderer.php:173 | No match can end its expression where spaces and `}}` do not follow. |
| Interpolation.MatchAt | src/Tempest/View/ViewRenderer.php:173 | The interpolation pattern's match at a position: reported only if it matches, the one with the shortest expression, and none exactly when the pattern cannot match there. |
| Interpolation.MatchDeterminedByExprEnd | src/Tempest/View/ViewRenderer.php:173 | Two matches at one position with the same expression end are the same match. |
| Interpolation.MatchWordExpression | src/Tempest/View/ViewRenderer.php:173 | In `{{ $name }}` with a word-character name, the match captures the whole name. |
| Interpolation.SegmentsAreMatches | src/Tempest/View/ViewRenderer.php:172-175 | Every replaced stretch of a text is a genuine match of the pattern, and its capture is that match's expression. |
| Interpolation.SegmentAt | src/Tempest/View/ViewRenderer.php:172-184 | A segment of the text starts where the text of the earlier segments ends. It is a copied character exactly when the pattern does not match there; otherwise it is the match there with the shortest expression. |
| Interpolation.Evaluate | src/Tempest/View/ViewRenderer.php:175-181 | A `$this->` expression becomes the view's evaluation, or '' when null. Any other expression becomes the data value under the expression with every leading `$` stripped, or '' when that key is missing. |
| Interpolation.RenderSegment | src/Tempest/View/ViewRenderer.php:174-182 | The callback applied to one piece of the scan, with no contract of its own. A copied character stays as it is (`Interpolation.RenderChars`), and a match becomes the value of its expression (`Interpolation.Evaluate`, `Interpolation.EvaluateName`). |
| Interpolation.RenderSegments | src/Tempest/View/ViewRenderer.php:172-184 | The replaced text assembled from the scan, with no contract of its own. `Interpolation.RenderSegmentsAppend` makes it piecewise. |
| Interpolation.RenderSegmentsAppend | src/Tempest/View/ViewRenderer.php:172-184 | Rendering two runs of segments is rendering the first run followed by the second. |
| Interpolation.RenderChars | src/Tempest/View/ViewRenderer.php:172-184 | Copied characters render as themselves, in order. |
| Interpolation.EvaluateName | src/Tempest/View/ViewRenderer.php:181 | `$name` is looked up in the element's data under `name`. |
| Interpolation.Interpolate | src/Tempest/View/ViewRenderer.php:170-185 | Text without `{{` comes out exactly as it went in. `Interpolation.InterpolateOneName` and `Interpolation.SegmentAt` describe the replacements. |
| Interpolation.InterpolateOneName | src/Tempest/View/ViewRenderer.php:172-184 | One `{{ $name }}` amid brace-free text is replaced by the name's binding, or by '' when unbound. The text around it is unchanged. |
| Interpolation.InterpolateBoundName | src/Tempest/View/ViewRenderer.php:181 | `Hello {{ $name }}` with `name => World` renders as `Hello World`. |
| Interpolation.InterpolateUnboundName | src/Tempest/View/ViewRenderer.php:181 | `Hello {{ $missing }}` with no binding renders as `Hello `. |
| Application.ApplyAttributes | src/Tempest/View/ViewRenderer.php:147-151 | A non-generic element comes back unchanged. |
| Application.ApplyInOrder | src/Tempest/View/ViewRenderer.php:161-165 | No attributes leave the element unchanged. One attribute is one application to the element. `Application.ApplyInOrderSnoc` and `Application.ApplyInOrderAppend` give the order for longer lists. |
| Application.ApplyAll | src/Tempest/View/ViewRenderer.php:153-157 | Each child is resolved on its own, in order, and none is added or dropped. |
| Application.ApplyInOrderSnoc | src/Tempest/View/ViewRenderer.php:161-165 | The last attribute is applied last, to the element all the earlier ones produced. |
| Application.ApplyInOrderAppend | src/Tempest/View/ViewRenderer.php:161-165 | Applying a list in two parts applies the first part, then the second part to its result. |
| Application.InertApplyInOrder | src/Tempest/View/ViewRenderer.php:161-165 | Attributes that change nothing leave the element as it was. |
| Application.InertLeavesTree | src/Tempest/View/ViewRenderer.php:147-168 | With attributes that change nothing, the pass returns the tree unchanged: it adds, drops and reorders no element. |
| Application.InertLeavesAll | src/Tempest/View/ViewRenderer.php:153-157 | The same for a list of children. |
| Application.FirstAttributeSeesResolvedChildren | src/Tempest/View/ViewRenderer.php:159-164 | The first attribute is applied to the element that already carries its resolved children and its original attributes. The rest follow in order. |
| Application.ApplyEach | src/Tempest/View/ViewRenderer.php:161-167 | The source's attribute loop threads the element through one application per attribute, in insertion order. |
| Application.ResolveAttributes | src/Tempest/View/ViewRenderer.php:147-168 | The source's two loops, children first and then attributes, compute the same element as the functional definition. |
| Application.ResolveChildren | src/Tempest/View/ViewRenderer.php:153-159 | The source's loop over the children resolves each child in turn and computes the same list as the functional definition. |
| Elements.GetSlot | src/Tempest/View/ViewRenderer.php:205 | The child of the invocation captured as the slot for a name. There is none exactly when no child is captured under that name. When two children are captured under one name, the later one wins. |
| Elements.Lookup | packages/view/src/Slot.php:22 | An attribute map lookup finds nothing exactly when no key matches. A found value is stored under that key. |
| Elements.LookupFinds | packages/view/src/Slot.php:22 | With unique keys, the value stored at a position is the value looked up. |
| Elements.IsTruthy | src/Tempest/View/ViewRenderer.php:247 | PHP truthiness of an attribute value. `Elements.FalsyValues` states it. |
| Elements.FalsyValues | src/Tempest/View/ViewRenderer.php:247 | The falsy values are exactly `null`, `false`, `''` and `'0'`. |
| Strings.Trim | src/Tempest/View/ViewRenderer.php:50 | `trim` leaves no trimmable character at either end, and removes only trimmable characters around a contiguous slice. |
| Strings.TrimStripsPadding | src/Tempest/View/ViewRenderer.php:50 | `trim` removes exactly the trimmable padding around a string whose ends are not trimmable. |
| Strings.TrimLeading | src/Tempest/View/ViewRenderer.php:181 | `ltrim` with one character drops every leading copy of it and nothing else. |
| Strings.Join | src/Tempest/View/ViewRenderer.php:254 | `implode`, with no contract of its own. `Strings.JoinEnds` and `Strings.JoinSplit` give its shape. |
| Strings.JoinEnds | src/Tempest/View/ViewRenderer.php:254 | A joined list starts with its first part and ends with its last. |
| Strings.JoinSplit | src/Tempest/View/ViewRenderer.php:195 | `implode` splits at any cut: the left part, one separator, the right part. |
| Strings.ConcatAppend | src/Tempest/View/ViewRenderer.php:62 | `implode('', …)` distributes over appending lists. |
| Slots.NewSlot | packages/view/src/Slot.php:14-18 | The constructor stores name, attributes and content verbatim. |
| Slots.Get | packages/view/src/Slot.php:20-23 | `__get` returns the stored attribute under the key, or null when no attribute has that key. |
| Slots.FromElement | packages/view/src/Slot.php:25-32 | The slot takes the name read from the element. For either variant, when that read gives null the name is `'default'`. It copies the element's attributes unchanged, and its content is the element's compiled string. |
| Slots.CollectionSlotName | packages/view/src/Slot.php:28 | A collection element is captured under its own name, or under `'default'` when it has none. |
| Slots.FromElementKeepsAttributes | packages/view/src/Slot.php:29 | Reading any attribute of a captured slot reads the element's own attribute. |
| Slots.SetState | packages/view/src/Slot.php:34-37 | `__set_state` succeeds exactly on an array with the three parameter names, each of the right type, and builds the slot from them. |
| Slots.SetStateMissingOrder | packages/view/src/Slot.php:34-37 | A parameter missing at the end is reported only after every earlier one was passed with the right type. A parameter missing before a passed one is reported before any type is checked. |
| Slots.SetStateTypeBeforeTrailingGap | packages/view/src/Slot.php:34-37 | `['name' => [], 'attributes' => []]` fails on the type of `name`, not on the missing `content`. |
| Slots.SetStateRoundTrip | packages/view/src/Slot.php:34-37 | Exporting a slot and restoring it gives back an equal slot. |
| Slots.SetStateOnlyFromExport | packages/view/src/Slot.php:34-37 | The only arrays `__set_state` accepts are exports: a restored slot re-exports to exactly its source array. |
| SlotElements.NewSlotElement | src/Tempest/View/Elements/SlotElement.php:12-14 | A new slot node carries the given name, and no attributes or children. |
| SlotElements.Matches | src/Tempest/View/Elements/SlotElement.php:16-19 | `matches`, with no contract of its own. `SlotElements.MatchesIffConstructionName` and the lemmas below state it: strict equality with the construction name. |
| SlotElements.MatchesIffConstructionName | src/Tempest/View/Elements/SlotElement.php:16-19 | `matches(n)` is true exactly when `n` is the construction name. |
| SlotElements.MatchesAtMostOneName | src/Tempest/View/Elements/SlotElement.php:18 | No normalisation lets two different names both match one node. |
| SlotElements.MatchesIsExact | src/Tempest/View/Elements/SlotElement.php:18 | The comparison is case-sensitive and whitespace-sensitive. |
| SlotElements.MatchesDependsOnlyOnName | src/Tempest/View/Elements/SlotElement.php:13 | The name is read-only, so nodes with the same name answer every query alike, whatever children they acquire. |

## Left out

- HTML parsing (`PHPHtmlParser\Dom`) and `ElementFactory::make` are an external library and code not part of this model. Together they are the `makeElement` field, which maps the wrapped markup to an element tree.
- `eval` of inline markup, `include` of a template and output buffering execute PHP. They are the `runInline` and `includeFile` fields. `file_exists` and `path()` are the `fileExists` and `joinPath` fields.
- Views.Render: every collaborator field is total. Exceptions thrown by `Attribute::apply` or `AttributeFactory::make`, `Container::get`, a component's `render`, an included template or `eval` of inline markup (a `ParseError`, say) propagate out of `render` in the source and are not modelled. An `Err` result therefore arises only from `ViewNotFound`.
- The exception thrown for a missing template is modelled as an `Err(ViewNotFound(path))` result. `Renderer.Message` gives its text.
- `Container::get` and the component's own `render` are the `container` and `renderComponent` fields. The renderer instance the source passes as the second argument of `render` is not modelled.
- `AttributeFactory::make` followed by `Attribute::apply` is the `applyAttribute` field. Its effect is arbitrary, so `applyAttributes` is specified by the order of the applications it makes.
- `View::eval` is the `eval` field of `View`. `Element::compile`, used by `Slot::fromElement`, is a parameter. Neither is part of this model.
- Interpolation.Evaluate: the values of `eval` and of the element's data are strings or null. With `strict_types`, the callback is declared `: string`, so any other value (an int, a bool, an array, an object) makes it throw a `TypeError`. The model has no such error path. An exception thrown inside `eval` is not modelled either.
- `GenericElement::getSlot` is not part of this model. It is the `capturesSlot` field, which says which children of an invocation are captured as the slot for a name. It is asked about the element that `applyAttributes` returned, so attributes that change the children change the slots found. `Elements.GetSlot` takes the later child when two are captured under one name, which is an assumption about code not shown.
- Elements.GetSlot: the slot a name finds is always exactly one child of the invocation, rendered by structural recursion. A slot made of several children, such as a default slot gathering the invocation's plain children, or a slot element that `getSlot` builds itself, is not modelled. With several plain children captured under one name, the model renders only the last, where the source may render them all.
- `getChildren()` of collection, text and empty elements is not part of this model. The model takes it as empty, which only matters for a parsed root that is not a generic element.
- The `// Cannot render` fall-through of `renderElement` is not modelled, because the element variants are closed and every one is handled.
- Attribute values are `null`, booleans and strings; integer and other PHP values are left out.
- `PHP_EOL` is taken as `"\n"`.
- The patterns are modelled without PCRE's backtracking and recursion limits and without the `u` modifier.
- Slots.SetState: models `new self(...$array)` with string keys only. With `strict_types` nothing is coerced: `name` and `content` take only strings and `attributes` only an array. Modelled values are strings and attribute arrays, so the `WrongType` error covers a string where an array belongs and the reverse. Values of other types (int, null, objects) would also raise a `TypeError` and are not modelled. Positional (integer-keyed) arguments and the exact text of each binding error are left out.
- Slots.FromElement: `$element->name` is the `nameOf` parameter. A slot element keeps its name in a private property, so what that read gives from outside depends on the element's own accessors, which are not part of this model. The model does not fix it to the construction name. `compile` is a parameter for the same reason. `Slots.CollectionSlotName` covers the collection element, whose name is its own.
- Renderer.SubstituteOneTag: stated for component output with one placeholder amid text that holds no `<`. `Renderer.SubstituteAppend`, `Renderer.SubstituteChars` and `Placeholders.PieceAt` cover text and placeholders in general.
- Renderer.ComponentOneTag: stated for component output with one placeholder amid text that holds no `<`, for the same reason.
- Renderer.NamedSlotFilled: stated for one `<x-slot name="N"/>` placeholder, spelled plainly, amid text that holds no `<`.
- Renderer.MissingSlotVerbatim: stated for one `<x-slot name="N"/>` placeholder, spelled plainly, amid text that holds no `<`.
- Renderer.BareSlotFilled: stated for one `<x-slot/>` placeholder, spelled plainly, amid text that holds no `<`.
- Renderer.UnregisteredTagRendersGeneric: excludes a lone attribute with an empty name and a falsy value. That is the one list where the spaced form and the source's join differ (`Renderer.AttributeStringSpaced`). `Renderer.GenericTagPair` covers every attribute list.
- Renderer.Fill: states only the missing-slot case. The filled case, the rendering of the captured child, is stated by `Renderer.NamedSlotFilled` and `Renderer.BareSlotFilled`.
- Interpolation.InterpolateOneName: stated for one `{{ $name }}` with a word-character name amid text without `{`. `Interpolation.Evaluate` and `Interpolation.SegmentsAreMatches` cover arbitrary expressions.

=== FILE: application.dfy ===
/** `applyAttributes`: the bottom-up pass that hands every attribute of every
    generic element to the attribute factory. Children are resolved first and
    assigned back; then the element's attributes are applied in insertion
    order, each to the element the previous application returned. */
module Application {
  import opened Elements
  import opened Renderer

  /** The attributes applied one after another, left to right, starting from `e`. */
  function ApplyInOrder(r: ViewRenderer, v: View, attrs: Attributes, e: Element): (out: Element)
    ensures attrs == [] ==> out == e
    ensures |attrs| == 1 ==> out == r.applyAttribute(v, attrs[0].0, attrs[0].1, e)
    decreases |attrs|
  {
    if attrs == [] then e
    else ApplyInOrder(r, v, attrs[1..], r.applyAttribute(v, attrs[0].0, attrs[0].1, e))
  }

  /** `applyAttributes`: a non-generic element is returned as it is. A generic
      element gets its children resolved first; its own attributes (as they
      were before any application) are then applied to the element carrying
      those resolved children. */
  function ApplyAttributes(r: ViewRenderer, v: View, e: Element): (out: Element)
    ensures !e.GenericElement? ==> out == e
    decreases e, 1
  {
    match e
    case GenericElement(tag, attrs, children) =>
      ApplyInOrder(r, v, attrs, GenericElement(tag, attrs, ApplyAll(r, v, children)))
    case _ => e
  }

  /** Each child resolved on its own, in order. */
  function ApplyAll(r: ViewRenderer, v: View, es: seq<Element>): (out: seq<Element>)
    ensures |out| == |es|
    ensures forall k :: 0 <= k < |es| ==> out[k] == ApplyAttributes(r, v, es[k])
    decreases es, 0
  {
    if es == [] then []
    else ApplyAll(r, v, es[..|es| - 1]) + [ApplyAttributes(r, v, es[|es| - 1])]
  }

  /** The last attribute is applied last, to what the others produced. */
  lemma {:induction false} ApplyInOrderSnoc(r: ViewRenderer, v: View, attrs: Attributes, a: (string, AttrValue), e: Element)
    ensures ApplyInOrder(r, v, attrs + [a], e) == r.applyAttribute(v, a.0, a.1, ApplyInOrder(r, v, attrs, e))
    decreases |attrs|
  {
    if attrs != [] {
      assert (attrs + [a])[1..] == attrs[1..] + [a];
      ApplyInOrderSnoc(r, v, attrs[1..], a, r.applyAttribute(v, attrs[0].0, attrs[0].1, e));
    } else {
      assert ([] + [a])[1..] == [];
    }
  }

  /** Applying a list in two parts applies the first part, then the second
      to its result. */
  lemma {:induction false} ApplyInOrderAppend(r: ViewRenderer, v: View, a: Attributes, b: Attributes, e: Element)
    ensures ApplyInOrder(r, v, a + b, e) == ApplyInOrder(r, v, b, ApplyInOrder(r, v, a, e))
    decreases |a|
  {
    if a == [] {
      assert a + b == b;
    } else {
      assert (a + b)[1..] == a[1..] + b;
      ApplyInOrderAppend(r, v, a[1..], b, r.applyAttribute(v, a[0].0, a[0].1, e));
    }
  }

  /** An attribute factory whose attributes change nothing leaves every
      tree exactly as it was: the pass itself adds, drops and reorders
      nothing. */
  ghost predicate InertApplier(r: ViewRenderer)
  {
    forall v, name, value, x :: r.applyAttribute(v, name, value, x) == x
  }

  lemma {:induction false} InertApplyInOrder(r: ViewRenderer, v: View, attrs: Attributes, e: Element)
    requires InertApplier(r)
    ensures ApplyInOrder(r, v, attrs, e) == e
    decreases |attrs|
  {
    if attrs != [] {
      assert r.applyAttribute(v, attrs[0].0, attrs[0].1, e) == e;
      InertApplyInOrder(r, v, attrs[1..], e);
    }
  }

  lemma {:induction false} InertLeavesTree(r: ViewRenderer, v: View, e: Element)
    requires InertApplier(r)
    ensures ApplyAttributes(r, v, e) == e
    decreases e, 1
  {
    if e.GenericElement? {
      InertLeavesAll(r, v, e.children);
      InertApplyInOrder(r, v, e.attributes, e);
    }
  }

  lemma {:induction false} InertLeavesAll(r: ViewRenderer, v: View, es: seq<Element>)
    requires InertApplier(r)
    ensures ApplyAll(r, v, es) == es
    decreases es, 0
  {
    forall k | 0 <= k < |es|
      ensures ApplyAll(r, v, es)[k] == es[k]
    {
      InertLeavesTree(r, v, es[k]);
    }
  }

  /** The first attribute already sees the resolved children. */
  lemma FirstAttributeSeesResolvedChildren(r: ViewRenderer, v: View, e: Element)
    requires e.GenericElement? && e.attributes != []
    ensures var a := e.attributes[0];
            var resolved := GenericElement(e.tag, e.attributes, ApplyAll(r, v, e.children));
            ApplyAttributes(r, v, e)
              == ApplyInOrder(r, v, e.attributes[1..], r.applyAttribute(v, a.0, a.1, resolved))
  {
  }

  /** The source's attribute loop: the element is threaded through one
      application per attribute, in insertion order. */
  method ApplyEach(r: ViewRenderer, v: View, attrs: Attributes, start: Element) returns (element: Element)
    ensures element == ApplyInOrder(r, v, attrs, start)
  {
    element := start;
    var j := 0;
    while j < |attrs|
      invariant 0 <= j <= |attrs|
      invariant element == ApplyInOrder(r, v, attrs[..j], start)
    {
      ApplyInOrderSnoc(r, v, attrs[..j], attrs[j], start);
      assert attrs[..j + 1] == attrs[..j] + [attrs[j]];
      element := r.applyAttribute(v, attrs[j].0, attrs[j].1, element);
      j := j + 1;
    }
    assert attrs[..j] == attrs;
  }

  /** `applyAttributes` as the source writes it: a loop over the children
      that recurses into each, then a loop over the attributes that threads
      the element through each application. */
  method ResolveAttributes(r: ViewRenderer, v: View, e: Element) returns (out: Element)
    ensures out == ApplyAttributes(r, v, e)
    decreases e, 1
  {
    if !e.GenericElement? {
      return e;
    }
    var children := ResolveChildren(r, v, e.children);
    out := ApplyEach(r, v, e.attributes, GenericElement(e.tag, e.attributes, children));
  }

  /** The loop over the children: each resolved in turn and assigned back. */
  method ResolveChildren(r: ViewRenderer, v: View, es: seq<Element>) returns (out: seq<Element>)
    ensures out == ApplyAll(r, v, es)
    decreases es, 0
  {
    out := [];
    var i := 0;
    while i < |es|
      invariant 0 <= i <= |es|
      invariant out == ApplyAll(r, v, es[..i])
    {
      var child := ResolveAttributes(r, v, es[i]);
      assert es[..i + 1][..i] == es[..i];
      out := out + [child];
      i := i + 1;
    }
    assert es[..i] == es;
  }
}

=== FILE: elements.dfy ===
/** Attribute values, the view context and the closed set of element
    variants the renderer walks. */
module Elements {
  import opened Wrappers

  /** A PHP attribute value as the renderer sees it: `null`, a boolean, or a string. */
  datatype AttrValue = Null | Bool(b: bool) | Str(s: string)

  /** PHP truthiness (`if ($value)`): `null`, `false`, `''` and `'0'` are falsy. */
  predicate IsTruthy(v: AttrValue)
  {
    match v
    case Null => false
    case Bool(b) => b
    case Str(s) => s != "" && s != "0"
  }

  /** The falsy values are exactly `null`, `false`, `''` and `'0'`. */
  lemma FalsyValues(v: AttrValue)
    ensures !IsTruthy(v) <==> v == Null || v == Bool(false) || v == Str("") || v == Str("0")
  {
  }

  /** PHP's string conversion in a concatenation: `true` is "1", `false` and `null` are "". */
  function AsString(v: AttrValue): string
  {
    match v
    case Null => ""
    case Bool(b) => if b then "1" else ""
    case Str(s) => s
  }

  /** An insertion-ordered attribute map: a list of (name, value) pairs. */
  type Attributes = seq<(string, AttrValue)>

  predicate UniqueKeys(attrs: Attributes)
  {
    forall i, j :: 0 <= i < j < |attrs| ==> attrs[i].0 != attrs[j].0
  }

  /** `$attributes[$key]`: the value stored under `key`, if any. */
  function Lookup(attrs: Attributes, key: string): (r: Option<AttrValue>)
    ensures r.None? <==> forall i :: 0 <= i < |attrs| ==> attrs[i].0 != key
    ensures r.Some? ==> exists i :: 0 <= i < |attrs| && attrs[i] == (key, r.value)
  {
    if |attrs| == 0 then None
    else if attrs[0].0 == key then Some(attrs[0].1)
    else
      var r := Lookup(attrs[1..], key);
      assert r.Some? ==> exists i :: 0 <= i < |attrs[1..]| && attrs[1..][i] == (key, r.value);
      r
  }

  /** In a map with unique keys, the value stored at a position is the value looked up. */
  lemma {:induction false} LookupFinds(attrs: Attributes, i: nat)
    requires UniqueKeys(attrs) && i < |attrs|
    ensures Lookup(attrs, attrs[i].0) == Some(attrs[i].1)
  {
    if i > 0 {
      assert attrs[0].0 != attrs[i].0;
      assert attrs[1..][i - 1] == attrs[i];
      LookupFinds(attrs[1..], i - 1);
    }
  }

  /** A view: its template (a `.php` path or inline markup) and `View::eval`,
      which evaluates an expression in the view's data scope (null when it yields nothing). */
  datatype View = View(path: string, eval: string -> Option<string>)

  /** The element tree. Each parent owns its children. */
  datatype Element =
    | CollectionElement(name: Option<string>, attributes: Attributes, elements: seq<Element>)
    | TextElement(text: string, data: map<string, string>)
    | EmptyElement
    | SlotElement(slotName: string, attributes: Attributes, children: seq<Element>)
    | GenericElement(tag: string, attributes: Attributes, children: seq<Element>)

  /** `getChildren()` for the variants that carry children. */
  function Children(e: Element): seq<Element>
  {
    match e
    case SlotElement(_, _, cs) => cs
    case GenericElement(_, _, cs) => cs
    case _ => []
  }

  /** `getSlot(name)` on a component invocation: the position of the child
      captured as the slot `name`, where `captures` says which children are
      captured under which name. When two children are captured under one
      name the later one wins. */
  function GetSlot(children: seq<Element>, name: string, captures: (Element, string) -> bool): (r: Option<nat>)
    ensures r.Some? ==> r.value < |children| && captures(children[r.value], name)
    ensures r.Some? ==> forall j :: r.value < j < |children| ==> !captures(children[j], name)
    ensures r.None? <==> forall j :: 0 <= j < |children| ==> !captures(children[j], name)
  {
    if |children| == 0 then None
    else if captures(children[|children| - 1], name) then Some(|children| - 1)
    else GetSlot(children[..|children| - 1], name, captures)
  }
}

=== FILE: interpolation.dfy ===
/** Text interpolation: every match of the pattern `{{\s*(?<eval>\$.*?)\s*}}`
    in a text element is replaced by the value of its expression; the rest of
    the text is copied through. The pattern is modelled with PCRE's own
    semantics (no `s` or `u` modifier): leftmost match, greedy `\s*`, lazy
    `.*?` that stops at the first line feed. */
module Interpolation {
  import opened Wrappers
  import opened Strings
  import opened Elements
  import opened Scanner

  /** Positions of one match in the subject: the `$` opening the expression,
      the end of the expression, and the end of the match. */
  datatype Hit = Hit(dollar: nat, exprEnd: nat, end: nat)

  predicate NoNewlineBetween(s: string, lo: int, hi: int)
    requires 0 <= lo <= hi <= |s|
  {
    forall k :: lo <= k < hi ==> s[k] != '\n'
  }

  /** `m` is one way for the pattern to match `s` at `i`: `{{`, spaces, `$`
      and a line-feed-free rest of the expression, spaces, `}}`. */
  predicate Matches(s: string, i: nat, m: Hit)
  {
    && i + 2 <= m.dollar < m.exprEnd && m.exprEnd + 2 <= m.end <= |s|
    && s[i] == '{' && s[i + 1] == '{'
    && SpaceBetween(s, i + 2, m.dollar)
    && s[m.dollar] == '$'
    && NoNewlineBetween(s, m.dollar + 1, m.exprEnd)
    && SpaceBetween(s, m.exprEnd, m.end - 2)
    && s[m.end - 2] == '}' && s[m.end - 1] == '}'
  }

  /** The expression a match captures, `$` included. */
  function Expression(s: string, m: Hit): string
    requires m.dollar <= m.exprEnd <= |s|
  {
    s[m.dollar..m.exprEnd]
  }

  /** Where the lazy `.*?` stops: trying expression ends `b`, `b + 1`, ... in
      turn, the first one after which spaces and `}}` follow. */
  function Shortest(s: string, i: nat, d: nat, b: nat): (r: Option<Hit>)
    requires i + 2 <= d < b <= |s|
    requires s[i] == '{' && s[i + 1] == '{' && SpaceBetween(s, i + 2, d) && s[d] == '$'
    requires NoNewlineBetween(s, d + 1, b)
    ensures r.Some? ==> Matches(s, i, r.value) && r.value.dollar == d && b <= r.value.exprEnd
    ensures r.Some? ==> forall m :: Matches(s, i, m) && m.dollar == d && b <= m.exprEnd ==> r.value.exprEnd <= m.exprEnd
    ensures r.None? ==> forall m :: Matches(s, i, m) && m.dollar == d ==> m.exprEnd < b
    decreases |s| - b
  {
    var j := SkipSpace(s, b);
    if j + 2 <= |s| && s[j] == '}' && s[j + 1] == '}' then
      Some(Hit(d, b, j + 2))
    else
      NotEndingAt(s, i, b);
      if b == |s| || s[b] == '\n' then None else Shortest(s, i, d, b + 1)
  }

  /** No match has its expression end at `b` unless spaces and `}}` follow `b`. */
  lemma NotEndingAt(s: string, i: nat, b: nat)
    requires b <= |s|
    requires var j := SkipSpace(s, b); !(j + 2 <= |s| && s[j] == '}' && s[j + 1] == '}')
    ensures forall m :: Matches(s, i, m) ==> m.exprEnd != b
  {
    forall m | Matches(s, i, m) && m.exprEnd == b
      ensures false
    {
      SpaceRunEnd(s, b, m.end - 2);
    }
  }

  /** The match PCRE reports at `i`, if the pattern matches there at all: the
      one with the shortest expression. */
  function MatchAt(s: string, i: nat): (r: Option<Hit>)
    ensures r.Some? ==> Matches(s, i, r.value)
    ensures r.Some? ==> forall m :: Matches(s, i, m) ==> r.value.exprEnd <= m.exprEnd
    ensures r.None? <==> forall m :: !Matches(s, i, m)
  {
    if i + 2 <= |s| && s[i] == '{' && s[i + 1] == '{' then
      var d := SkipSpace(s, i + 2);
      assert forall m :: Matches(s, i, m) ==> m.dollar == d by {
        forall m | Matches(s, i, m)
          ensures m.dollar == d
        {
          SpaceRunEnd(s, i + 2, m.dollar);
        }
      }
      if d < |s| && s[d] == '$' then Shortest(s, i, d, d + 1) else None
    else
      None
  }

  /** Two matches at one position with the same expression end are the same match. */
  lemma MatchDeterminedByExprEnd(s: string, i: nat, m1: Hit, m2: Hit)
    requires Matches(s, i, m1) && Matches(s, i, m2) && m1.exprEnd == m2.exprEnd
    ensures m1 == m2
  {
    SpaceRunEnd(s, i + 2, m1.dollar);
    SpaceRunEnd(s, i + 2, m2.dollar);
    SpaceRunEnd(s, m1.exprEnd, m1.end - 2);
    SpaceRunEnd(s, m2.exprEnd, m2.end - 2);
  }

  /** The pattern as a finder for the scan: the end of the match at a
      position and the expression it captured. */
  function Finder(s: string): (find: nat -> Option<(nat, string)>)
    ensures FinderWithin(s, find)
  {
    k =>
      match MatchAt(s, k)
      case Some(m) => Some((m.end, Expression(s, m)))
      case None => None
  }

  /** The text as `preg_replace_callback` walks it. */
  function Segments(s: string): seq<Piece<string>>
  {
    Scan(s, 0, Finder(s))
  }

  /** Every replaced stretch of the text is a genuine match of the pattern,
      and its capture is the expression of that match. */
  lemma SegmentsAreMatches(s: string, n: nat)
    requires n < |Segments(s)| && Segments(s)[n].Found?
    ensures exists p: nat, m :: Matches(s, p, m) && Segments(s)[n] == Found(s[p..m.end], Expression(s, m))
  {
    ScanFoundAreMatches(s, 0, Finder(s), n);
    var p: nat :| 0 <= p < |s| && Finder(s)(p).Some?
                 && Segments(s)[n] == Found(s[p..Finder(s)(p).value.0], Finder(s)(p).value.1);
    var m := MatchAt(s, p).value;
    assert Matches(s, p, m);
  }

  /** The segment at index `n` begins at `p`, the length of the text the
      earlier segments spell. It is a copied character exactly when the
      pattern does not match at `p`; otherwise it is the match there with
      the shortest expression. */
  lemma SegmentAt(s: string, n: nat, p: nat)
    requires n < |Segments(s)| && p == |Raw(Segments(s)[..n])|
    ensures p < |s|
    ensures Segments(s)[n].Char? <==> forall m :: !Matches(s, p, m)
    ensures Segments(s)[n].Char? ==> Segments(s)[n] == Char(s[p])
    ensures forall m :: Matches(s, p, m) && (forall m' :: Matches(s, p, m') ==> m.exprEnd <= m'.exprEnd)
              ==> Segments(s)[n] == Found(s[p..m.end], Expression(s, m))
  {
    ScanPieceAt(s, 0, Finder(s), n, p);
    forall m | Matches(s, p, m) && (forall m' :: Matches(s, p, m') ==> m.exprEnd <= m'.exprEnd)
      ensures Segments(s)[n] == Found(s[p..m.end], Expression(s, m))
    {
      MatchDeterminedByExprEnd(s, p, m, MatchAt(s, p).value);
    }
  }

  /** The scan of a text without `{{` copies it character by character. */
  lemma SegmentsWithoutBraces(s: string)
    requires forall k :: 0 <= k < |s| - 1 ==> !(s[k] == '{' && s[k + 1] == '{')
    ensures Segments(s) == Chars(s, 0, |s|)
  {
    assert forall k: nat :: 0 <= k < |s| ==> Finder(s)(k).None? by {
      forall k: nat | 0 <= k < |s|
        ensures Finder(s)(k).None?
      {
        assert MatchAt(s, k).None?;
      }
    }
    ScanCopiesUnmatched(s, 0, |s|, Finder(s));
    assert Scan(s, |s|, Finder(s)) == [];
    assert Chars<string>(s, 0, |s|) + [] == Chars(s, 0, |s|);
  }

  /** The value one expression is replaced with: a `$this->` expression is
      evaluated by the view (null becomes ''); any other is a key of the
      element's data, every leading `$` stripped (a missing key becomes ''). */
  function Evaluate(view: View, data: map<string, string>, expr: string): (r: string)
    ensures StartsWith(expr, "$this->") ==> r == view.eval(expr).GetOr("")
    ensures !StartsWith(expr, "$this->") ==>
      exists k :: 0 <= k <= |expr| && (forall j :: 0 <= j < k ==> expr[j] == '$')
                  && (k == |expr| || expr[k] != '$')
                  && r == (if expr[k..] in data then data[expr[k..]] else "")
  {
    if StartsWith(expr, "$this->") then view.eval(expr).GetOr("")
    else
      var key := TrimLeading(expr, '$');
      assert key == expr[|expr| - |key|..];
      if key in data then data[key] else ""
  }

  function RenderSegment(view: View, data: map<string, string>, seg: Piece<string>): string
  {
    match seg
    case Char(c) => [c]
    case Found(_, expr) => Evaluate(view, data, expr)
  }

  function RenderSegments(view: View, data: map<string, string>, segs: seq<Piece<string>>): string
  {
    if segs == [] then "" else RenderSegment(view, data, segs[0]) + RenderSegments(view, data, segs[1..])
  }

  /** Rendering works segment by segment: over two runs of segments it is
      the rendering of the first run followed by that of the second. */
  lemma {:induction false} RenderSegmentsAppend(view: View, data: map<string, string>, a: seq<Piece<string>>, b: seq<Piece<string>>)
    ensures RenderSegments(view, data, a + b) == RenderSegments(view, data, a) + RenderSegments(view, data, b)
    decreases |a|
  {
    if a == [] {
      assert a + b == b;
    } else {
      assert (a + b)[0] == a[0] && (a + b)[1..] == a[1..] + b;
      RenderSegmentsAppend(view, data, a[1..], b);
    }
  }

  /** `renderTextElement`: the text with every match replaced by its value.
      Text without `{{` comes out exactly as it went in. */
  function Interpolate(view: View, data: map<string, string>, text: string): (out: string)
    ensures (forall k :: 0 <= k < |text| - 1 ==> !(text[k] == '{' && text[k + 1] == '{')) ==> out == text
  {
    assert (forall k :: 0 <= k < |text| - 1 ==> !(text[k] == '{' && text[k + 1] == '{'))
           ==> RenderSegments(view, data, Segments(text)) == text by {
      if forall k :: 0 <= k < |text| - 1 ==> !(text[k] == '{' && text[k + 1] == '{') {
        SegmentsWithoutBraces(text);
        assert Segments(text) == Chars(text, 0, |text|) + [];
        RenderChars(view, data, text, 0, |text|, []);
      }
    }
    RenderSegments(view, data, Segments(text))
  }

  /** Copied characters render as themselves. */
  lemma {:induction false} RenderChars(view: View, data: map<string, string>, s: string, i: nat, j: nat, rest: seq<Piece<string>>)
    requires i <= j <= |s|
    ensures RenderSegments(view, data, Chars(s, i, j) + rest) == s[i..j] + RenderSegments(view, data, rest)
    decreases j - i
  {
    if i < j {
      var tail := Chars(s, i + 1, j) + rest;
      var segs := [Char(s[i])] + tail;
      assert Chars(s, i, j) + rest == segs;
      assert segs[0] == Char(s[i]) && segs[1..] == tail;
      RenderChars(view, data, s, i + 1, j, rest);
      assert s[i..j] == [s[i]] + s[i + 1..j];
    } else {
      assert Chars<string>(s, i, j) + rest == rest;
    }
  }

  /** An expression whose characters after the `$` are word characters is
      captured whole: the lazy `.*?` cannot stop inside it. */
  lemma MatchWordExpression(s: string, i: nat, d: nat, b: nat, e: nat)
    requires i + 2 <= d < b && b + 2 <= e <= |s|
    requires s[i] == '{' && s[i + 1] == '{' && SpaceBetween(s, i + 2, d) && s[d] == '$'
    requires WordBetween(s, d + 1, b)
    requires SpaceBetween(s, b, e - 2) && s[e - 2] == '}' && s[e - 1] == '}'
    ensures MatchAt(s, i) == Some(Hit(d, b, e))
  {
    var h := Hit(d, b, e);
    assert Matches(s, i, h);
    var r := MatchAt(s, i).value;
    assert r.exprEnd <= b;
    assert r.dollar == d by {
      SpaceRunEnd(s, i + 2, r.dollar);
    }
    assert forall k :: d + 1 <= k < b ==> !IsSpace(s[k]) && s[k] != '}';
    assert IsSpace(s[r.exprEnd]) || s[r.exprEnd] == '}';
    assert r.exprEnd >= b;
    MatchDeterminedByExprEnd(s, i, r, h);
  }

  /** A `$name` expression with a word-character name is looked up in the data. */
  lemma EvaluateName(view: View, data: map<string, string>, name: string)
    requires |name| > 0 && forall k :: 0 <= k < |name| ==> IsWord(name[k])
    ensures Evaluate(view, data, "$" + name) == (if name in data then data[name] else "")
  {
    var expr := "$" + name;
    assert forall k :: 1 <= k < |expr| ==> IsWord(expr[k]);
    assert !IsWord("$this->"[5]);
    assert !StartsWith(expr, "$this->");
    assert expr[1..] == name;
    assert TrimLeading(expr, '$') == name;
  }

  /** `{{ $name }}` is matched whole where it starts. */
  lemma NamePlaceholderFound(pre: string, name: string, post: string)
    requires |name| > 0 && forall k :: 0 <= k < |name| ==> IsWord(name[k])
    ensures var s := pre + "{{ $" + name + " }}" + post;
            Finder(s)(|pre|) == Some((|pre| + 7 + |name|, "$" + name))
  {
    var s := pre + "{{ $" + name + " }}" + post;
    var p, e := |pre|, |pre| + 7 + |name|;
    assert WordBetween(s, p + 4, e - 3) by {
      forall k | p + 4 <= k < e - 3
        ensures IsWord(s[k])
      {
        assert s[k] == name[k - p - 4];
      }
    }
    assert s[p] == '{' && s[p + 1] == '{' && s[p + 2] == ' ' && s[p + 3] == '$';
    assert s[e - 3] == ' ' && s[e - 2] == '}' && s[e - 1] == '}';
    MatchWordExpression(s, p, p + 3, e - 3, e);
    assert s[p + 3..e - 3] == "$" + name;
  }

  /** The scan of `pre {{ $name }} post` when neither side holds a brace. */
  lemma OneNameSegments(pre: string, name: string, post: string)
    requires forall k :: 0 <= k < |pre| ==> pre[k] != '{'
    requires forall k :: 0 <= k < |post| ==> post[k] != '{'
    requires |name| > 0 && forall k :: 0 <= k < |name| ==> IsWord(name[k])
    ensures var s := pre + "{{ $" + name + " }}" + post;
            var p, e := |pre|, |pre| + 7 + |name|;
            Segments(s) == Chars(s, 0, p) + ([Found(s[p..e], "$" + name)] + Chars(s, e, |s|))
  {
    var s := pre + "{{ $" + name + " }}" + post;
    var p, e := |pre|, |pre| + 7 + |name|;
    var find := Finder(s);
    assert forall k: nat :: k < p ==> find(k).None? by {
      forall k: nat | k < p
        ensures find(k).None?
      {
        assert s[k] == pre[k];
        assert MatchAt(s, k).None?;
      }
    }
    assert forall k: nat :: e <= k < |s| ==> find(k).None? by {
      forall k: nat | e <= k < |s|
        ensures find(k).None?
      {
        assert s[k] == post[k - e];
        assert MatchAt(s, k).None?;
      }
    }
    NamePlaceholderFound(pre, name, post);
    ScanOneMatch(s, p, e, "$" + name, find);
  }

  /** The characters from `i` to the end render as that suffix. */
  lemma RenderSuffix(view: View, data: map<string, string>, s: string, i: nat)
    requires i <= |s|
    ensures RenderSegments(view, data, Chars(s, i, |s|)) == s[i..]
  {
    assert Chars<string>(s, i, |s|) + [] == Chars(s, i, |s|);
    RenderChars(view, data, s, i, |s|, []);
  }

  /** A lone `{{ $name }}` match renders as the name's binding, or '' when unbound. */
  lemma RenderNameSegment(view: View, data: map<string, string>, raw: string, name: string)
    requires |name| > 0 && forall k :: 0 <= k < |name| ==> IsWord(name[k])
    ensures RenderSegments(view, data, [Found(raw, "$" + name)]) == (if name in data then data[name] else "")
  {
    EvaluateName(view, data, name);
    assert [Found(raw, "$" + name)][1..] == [];
  }

  /** Rendering the pieces of `pre {{ $name }} post`. */
  lemma RenderOneName(view: View, data: map<string, string>, s: string, p: nat, e: nat, name: string)
    requires p <= e <= |s|
    requires |name| > 0 && forall k :: 0 <= k < |name| ==> IsWord(name[k])
    ensures RenderSegments(view, data, Chars(s, 0, p) + ([Found(s[p..e], "$" + name)] + Chars(s, e, |s|)))
         == s[..p] + (if name in data then data[name] else "") + s[e..]
  {
    var mid := [Found(s[p..e], "$" + name)];
    var tail := Chars(s, e, |s|);
    RenderChars(view, data, s, 0, p, mid + tail);
    RenderSegmentsAppend(view, data, mid, tail);
    RenderNameSegment(view, data, s[p..e], name);
    RenderSuffix(view, data, s, e);
    assert s[0..p] == s[..p];
  }

  /** One `{{ $name }}` amid text without braces: the text around it is
      copied and the placeholder becomes the name's binding, or '' when unbound. */
  lemma InterpolateOneName(view: View, data: map<string, string>, pre: string, name: string, post: string)
    requires forall k :: 0 <= k < |pre| ==> pre[k] != '{'
    requires forall k :: 0 <= k < |post| ==> post[k] != '{'
    requires |name| > 0 && forall k :: 0 <= k < |name| ==> IsWord(name[k])
    ensures Interpolate(view, data, pre + "{{ $" + name + " }}" + post)
         == pre + (if name in data then data[name] else "") + post
  {
    var s := pre + "{{ $" + name + " }}" + post;
    var p, e := |pre|, |pre| + 7 + |name|;
    OneNameSegments(pre, name, post);
    RenderOneName(view, data, s, p, e, name);
    assert s[..p] == pre && s[e..] == post;
  }

  /** Interpolation of a bound name: `Hello {{ $name }}` with `name => World`. */
  lemma InterpolateBoundName(view: View)
    ensures Interpolate(view, map["name" := "World"], "Hello {{ $name }}") == "Hello World"
  {
    var pre, name := "Hello ", "name";
    assert forall k :: 0 <= k < |name| ==> IsWord(name[k]) by {
      forall k | 0 <= k < |name|
        ensures IsWord(name[k])
      {
        assert k == 0 || k == 1 || k == 2 || k == 3;
      }
    }
    assert forall k :: 0 <= k < |pre| ==> pre[k] != '{' by {
      forall k | 0 <= k < |pre|
        ensures pre[k] != '{'
      {
        assert k == 0 || k == 1 || k == 2 || k == 3 || k == 4 || k == 5;
      }
    }
    var data := map["name" := "World"];
    InterpolateOneName(view, data, pre, name, "");
    assert pre + "{{ $" + name + " }}" + "" == "Hello {{ $name }}";
    assert name in data && data[name] == "World";
    assert pre + "World" + "" == "Hello World";
  }

  /** An unbound name renders as the empty string: `Hello {{ $missing }}` becomes `Hello `. */
  lemma InterpolateUnboundName(view: View)
    ensures Interpolate(view, map[], "Hello {{ $missing }}") == "Hello "
  {
    var pre, name := "Hello ", "missing";
    assert forall k :: 0 <= k < |name| ==> IsWord(name[k]) by {
      forall k | 0 <= k < |name|
        ensures IsWord(name[k])
      {
        assert k == 0 || k == 1 || k == 2 || k == 3 || k == 4 || k == 5 || k == 6;
      }
    }
    assert forall k :: 0 <= k < |pre| ==> pre[k] != '{' by {
      forall k | 0 <= k < |pre|
        ensures pre[k] != '{'
      {
        assert k == 0 || k == 1 || k == 2 || k == 3 || k == 4 || k == 5;
      }
    }
    InterpolateOneName(view, map[], pre, name, "");
    assert pre + "{{ $" + name + " }}" + "" == "Hello {{ $missing }}";
  }
}

=== FILE: placeholders.dfy ===
/** Slot placeholders in a component's output: matches of the pattern
    `<x-slot\s*(name="(?<name>\w+)")?\s*\/>`, with PCRE's semantics (no `u`
    modifier). A placeholder without a `name` attribute asks for the slot
    named "slot". */
module Placeholders {
  import opened Wrappers
  import opened Strings
  import opened Scanner

  /** The name a placeholder without a `name` attribute looks up. */
  const UNNAMED: string := "slot"

  /** One match at a position: `<x-slot` + spaces + `/>` ending at `end`, or
      with a `name="…"` group starting at `group` whose name ends at `nameEnd`. */
  datatype Tag = Bare(end: nat) | Named(group: nat, nameEnd: nat, end: nat)

  predicate Opens(s: string, i: nat)
  {
    i + 7 <= |s| && s[i..i + 7] == "<x-slot"
  }

  predicate ClosesAt(s: string, e: nat)
  {
    2 <= e <= |s| && s[e - 2] == '/' && s[e - 1] == '>'
  }

  /** `t` is a way for the pattern to match `s` at `i`. */
  predicate Matches(s: string, i: nat, t: Tag)
  {
    && Opens(s, i)
    && match t
       case Bare(e) =>
         i + 9 <= e <= |s| && SpaceBetween(s, i + 7, e - 2) && ClosesAt(s, e)
       case Named(g, n, e) =>
         && i + 7 <= g && g + 6 < n && n + 3 <= e <= |s|
         && SpaceBetween(s, i + 7, g)
         && s[g..g + 6] == "name=\""
         && WordBetween(s, g + 6, n) && s[n] == '"'
         && SpaceBetween(s, n + 1, e - 2) && ClosesAt(s, e)
  }

  /** The slot a match asks for: its `name` capture, or "slot" when the
      optional group did not take part (`$matches['name'] ?? 'slot'`). */
  function SlotName(s: string, t: Tag): string
    requires t.Named? ==> t.group + 6 <= t.nameEnd <= |s|
  {
    match t
    case Bare(_) => UNNAMED
    case Named(g, n, _) => s[g + 6..n]
  }

  /** The slot a match asks for: "slot" for a bare placeholder, and for a
      named one the non-empty run of word characters between the quotes. */
  lemma SlotNameOfMatch(s: string, i: nat, t: Tag)
    requires Matches(s, i, t)
    ensures t.Bare? ==> SlotName(s, t) == UNNAMED
    ensures t.Named? ==> var name := SlotName(s, t);
              && |name| > 0 && (forall k :: 0 <= k < |name| ==> IsWord(name[k]))
              && s[t.group..t.group + 6] + name + "\"" == s[t.group..t.nameEnd + 1]
  {
    if t.Named? {
      var name := SlotName(s, t);
      assert forall k :: 0 <= k < |name| ==> name[k] == s[t.group + 6 + k];
      assert s[t.group..t.nameEnd + 1] == s[t.group..t.group + 6] + name + [s[t.nameEnd]];
    }
  }

  /** A bare match ends right after the space run that follows `<x-slot`. */
  lemma BareEnd(s: string, i: nat, t: Tag)
    requires Matches(s, i, t) && t.Bare?
    ensures t.end - 2 == SkipSpace(s, i + 7)
  {
    SpaceRunEnd(s, i + 7, t.end - 2);
  }

  /** In a named match every boundary is where the greedy runs stop. */
  lemma NamedBounds(s: string, i: nat, t: Tag)
    requires Matches(s, i, t) && t.Named?
    ensures t.group == SkipSpace(s, i + 7)
    ensures t.nameEnd == SkipWord(s, t.group + 6)
    ensures t.end - 2 == SkipSpace(s, t.nameEnd + 1)
  {
    assert s[t.group] == s[t.group..t.group + 6][0];
    SpaceRunEnd(s, i + 7, t.group);
    WordRunEnd(s, t.group + 6, t.nameEnd);
    SpaceRunEnd(s, t.nameEnd + 1, t.end - 2);
  }

  /** The match PCRE reports at `i`. The optional group is tried first; when
      what follows it is not spaces and `/>` the engine falls back to matching
      without it, which fails too, so at most one match exists. */
  function MatchAt(s: string, i: nat): (r: Option<Tag>)
    ensures r.Some? ==> Matches(s, i, r.value)
    ensures r.Some? ==> forall t :: Matches(s, i, t) ==> t == r.value
    ensures r.None? <==> forall t :: !Matches(s, i, t)
  {
    if !Opens(s, i) then None
    else
      var p := SkipSpace(s, i + 7);
      var named := NamedAt(s, i, p);
      if named.Some? then
        NamedAtFound(s, i, p);
        named
      else if p + 2 <= |s| && s[p] == '/' && s[p + 1] == '>' then
        NamedAtMissing(s, i, p);
        assert Matches(s, i, Bare(p + 2));
        assert forall t :: Matches(s, i, t) ==> t == Bare(p + 2) by {
          forall t | Matches(s, i, t)
            ensures t == Bare(p + 2)
          {
            if t.Bare? { BareEnd(s, i, t); }
          }
        }
        Some(Bare(p + 2))
      else
        NamedAtMissing(s, i, p);
        assert forall t :: !Matches(s, i, t) by {
          forall t | Matches(s, i, t)
            ensures false
          {
            if t.Bare? { BareEnd(s, i, t); }
          }
        }
        None
  }

  /** The `name="…"` alternative at `i`, whose group must start at `p`, the
      end of the space run after `<x-slot`. */
  function NamedAt(s: string, i: nat, p: nat): Option<Tag>
    requires p <= |s|
  {
    if p + 6 <= |s| && s[p..p + 6] == "name=\"" then
      var n := SkipWord(s, p + 6);
      if p + 6 < n < |s| && s[n] == '"' then
        var q := SkipSpace(s, n + 1);
        if q + 2 <= |s| && s[q] == '/' && s[q + 1] == '>' then Some(Named(p, n, q + 2))
        else None
      else None
    else None
  }

  /** What the named alternative finds is the one match at `i`. */
  lemma NamedAtFound(s: string, i: nat, p: nat)
    requires Opens(s, i) && p == SkipSpace(s, i + 7) && NamedAt(s, i, p).Some?
    ensures Matches(s, i, NamedAt(s, i, p).value)
    ensures forall t :: Matches(s, i, t) ==> t == NamedAt(s, i, p).value
  {
    var m := NamedAt(s, i, p).value;
    assert Matches(s, i, m);
    NamedIsOnly(s, i, m);
  }

  /** When the named alternative fails, every match at `i` is bare. */
  lemma NamedAtMissing(s: string, i: nat, p: nat)
    requires Opens(s, i) && p == SkipSpace(s, i + 7) && NamedAt(s, i, p).None?
    ensures forall t :: Matches(s, i, t) ==> t.Bare?
  {
    forall t | Matches(s, i, t) && t.Named?
      ensures false
    {
      NamedBounds(s, i, t);
    }
  }

  /** A named match is the only match at its position. */
  lemma NamedIsOnly(s: string, i: nat, m: Tag)
    requires Matches(s, i, m) && m.Named?
    ensures forall t :: Matches(s, i, t) ==> t == m
  {
    NamedBounds(s, i, m);
    forall t | Matches(s, i, t)
      ensures t == m
    {
      if t.Named? { NamedBounds(s, i, t); } else { BareEnd(s, i, t); }
    }
  }

  /** The pattern as a finder for the scan: the end of the match at a
      position and the name of the slot it asks for. */
  function Find(s: string, k: nat): (r: Option<(nat, string)>)
    ensures r.Some? ==> k < r.value.0 <= |s|
  {
    match MatchAt(s, k)
    case Some(t) => Some((t.end, SlotName(s, t)))
    case None => None
  }

  function Finder(s: string): (find: nat -> Option<(nat, string)>)
    ensures FinderWithin(s, find)
  {
    k => Find(s, k)
  }

  /** A component's output as `preg_replace_callback` walks it. */
  function Pieces(s: string): seq<Piece<string>>
  {
    Scan(s, 0, Finder(s))
  }

  /** Every placeholder piece is a genuine match of the pattern, asking for
      the slot that match names. */
  lemma PiecesAreMatches(s: string, n: nat)
    requires n < |Pieces(s)| && Pieces(s)[n].Found?
    ensures exists p: nat, t :: Matches(s, p, t) && Pieces(s)[n] == Found(s[p..t.end], SlotName(s, t))
  {
    ScanFoundAreMatches(s, 0, Finder(s), n);
    var p: nat :| 0 <= p < |s| && Finder(s)(p).Some?
                 && Pieces(s)[n] == Found(s[p..Finder(s)(p).value.0], Finder(s)(p).value.1);
    var t := MatchAt(s, p).value;
    assert Matches(s, p, t);
  }

  /** The piece at index `n` begins at `p`, the length of the output the
      earlier pieces spell. It is a copied character exactly when no
      placeholder starts at `p`; otherwise it is the one placeholder there,
      asking for the slot that placeholder names. */
  lemma PieceAt(s: string, n: nat, p: nat)
    requires n < |Pieces(s)| && p == |Raw(Pieces(s)[..n])|
    ensures p < |s|
    ensures Pieces(s)[n].Char? <==> forall t :: !Matches(s, p, t)
    ensures Pieces(s)[n].Char? ==> Pieces(s)[n] == Char(s[p])
    ensures forall t :: Matches(s, p, t) ==> Pieces(s)[n] == Found(s[p..t.end], SlotName(s, t))
  {
    ScanPieceAt(s, 0, Finder(s), n, p);
  }

  /** No placeholder starts at a character other than `<`. */
  lemma NoFindWithoutOpen(s: string, k: nat)
    requires k < |s| && s[k] != '<'
    ensures Find(s, k).None?
  {
    assert !Opens(s, k) by {
      if k + 7 <= |s| {
        assert s[k..k + 7][0] == s[k];
      }
    }
  }

  /** Output without `<` holds no placeholder and is scanned as plain characters. */
  lemma PiecesWithoutTags(s: string)
    requires forall k :: 0 <= k < |s| ==> s[k] != '<'
    ensures Pieces(s) == Chars(s, 0, |s|)
  {
    var find := Finder(s);
    forall k: nat | k < |s|
      ensures find(k).None?
    {
      NoFindWithoutOpen(s, k);
    }
    ScanCopiesUnmatched(s, 0, |s|, find);
    assert Scan(s, |s|, find) == [];
    assert Chars<string>(s, 0, |s|) + [] == Chars(s, 0, |s|);
  }

  /** `<x-slot/>` is found where it starts and asks for the slot "slot". */
  lemma BarePlaceholderFound(pre: string, post: string)
    ensures |BARE_TAG| == 9
    ensures var s := pre + BARE_TAG + post;
            Find(s, |pre|) == Some((|pre| + 9, UNNAMED))
  {
    var s := pre + BARE_TAG + post;
    var p := |pre|;
    assert s[p..p + 9] == "<x-slot/>";
    assert s[p..p + 7] == "<x-slot";
    assert s[p + 7] == '/' && s[p + 8] == '>';
    assert SkipSpace(s, p + 7) == p + 7;
    assert MatchAt(s, p) == Some(Bare(p + 9));
  }

  /** The plainest spelling of a placeholder without a name. */
  const BARE_TAG: string := "<x-slot/>"

  /** The plainest spelling of a placeholder for the slot `name`. */
  function NamedTag(name: string): string
  {
    "<x-slot name=\"" + name + "\"/>"
  }

  /** The three parts of a named placeholder's spelling. */
  lemma TagParts(tag: string, name: string)
    requires tag == NamedTag(name)
    ensures |tag| == 17 + |name|
    ensures tag[0..14] == "<x-slot name=\""
    ensures tag[14..14 + |name|] == name
    ensures tag[14 + |name|..17 + |name|] == "\"/>"
  {
  }

  /** A placeholder spelled `<x-slot name="N"/>` at `p` is found there and
      asks for the slot `N`. */
  lemma NamedTagAt(s: string, p: nat, name: string)
    requires |name| > 0 && forall k :: 0 <= k < |name| ==> IsWord(name[k])
    requires p + 17 + |name| <= |s|
    requires s[p..p + 17 + |name|] == NamedTag(name)
    ensures Find(s, p) == Some((p + 17 + |name|, name))
  {
    var n := p + 14 + |name|;
    NamedTagMatches(s, p, name);
    assert MatchAt(s, p) == Some(Named(p + 8, n, n + 3));
    assert s[p + 14..n] == name by {
      TagParts(s[p..p + 17 + |name|], name);
      SubSlice(s, p, p + 17 + |name|, 14, 14 + |name|);
    }
  }

  /** The spelling `<x-slot name="N"/>` at `p` is a named match. */
  lemma NamedTagMatches(s: string, p: nat, name: string)
    requires |name| > 0 && forall k :: 0 <= k < |name| ==> IsWord(name[k])
    requires p + 17 + |name| <= |s|
    requires s[p..p + 17 + |name|] == NamedTag(name)
    ensures Matches(s, p, Named(p + 8, p + 14 + |name|, p + 17 + |name|))
  {
    var n := p + 14 + |name|;
    TagParts(s[p..p + 17 + |name|], name);
    SubSlice(s, p, p + 17 + |name|, 0, 14);
    SubSlice(s, p, p + 17 + |name|, 14, 14 + |name|);
    SubSlice(s, p, p + 17 + |name|, 14 + |name|, 17 + |name|);
    assert s[p..p + 7] == s[p..p + 14][..7] == "<x-slot";
    assert s[p + 7] == s[p..p + 14][7] == ' ';
    assert s[p + 8..p + 14] == s[p..p + 14][8..] == "name=\"";
    assert WordBetween(s, p + 14, n) by {
      forall k | p + 14 <= k < n
        ensures IsWord(s[k])
      {
        assert s[k] == s[p + 14..n][k - p - 14] == name[k - p - 14];
      }
    }
    assert s[n] == s[n..n + 3][0] == '"';
    assert s[n + 1] == s[n..n + 3][1] == '/';
    assert s[n + 2] == s[n..n + 3][2] == '>';
    var t := Named(p + 8, n, n + 3);
    assert Matches(s, p, t);
  }

  /** `<x-slot name="N"/>` with a word-character name is found where it
      starts and asks for the slot `N`. */
  lemma NamedPlaceholderFound(pre: string, name: string, post: string)
    requires |name| > 0 && forall k :: 0 <= k < |name| ==> IsWord(name[k])
    ensures |NamedTag(name)| == 17 + |name|
    ensures var s := pre + NamedTag(name) + post;
            Find(s, |pre|) == Some((|pre| + 17 + |name|, name))
  {
    var tag := NamedTag(name);
    assert |tag| == 17 + |name|;
    var s := pre + tag + post;
    var p := |pre|;
    SliceMiddle(pre, tag, post);
    NamedTagAt(s, p, name);
  }

  /** The scan of `pre + tag + post` when neither side holds a `<` and a
      placeholder spelled `tag` is found at the start of `tag`. */
  lemma OneTagPieces(pre: string, tag: string, post: string, name: string)
    requires forall k :: 0 <= k < |pre| ==> pre[k] != '<'
    requires forall k :: 0 <= k < |post| ==> post[k] != '<'
    requires |tag| > 0
    requires Find(pre + tag + post, |pre|) == Some((|pre| + |tag|, name))
    ensures var s := pre + tag + post;
            var p, e := |pre|, |pre| + |tag|;
            Pieces(s) == Chars(s, 0, p) + ([Found(tag, name)] + Chars(s, e, |s|))
  {
    var s := pre + tag + post;
    var p, e := |pre|, |pre| + |tag|;
    var find := Finder(s);
    forall k: nat | k < p
      ensures find(k).None?
    {
      assert s[k] == pre[k];
      NoFindWithoutOpen(s, k);
    }
    forall k: nat | e <= k < |s|
      ensures find(k).None?
    {
      assert s[k] == post[k - e];
      NoFindWithoutOpen(s, k);
    }
    assert s[p..e] == tag;
    ScanOneMatch(s, p, e, name, find);
  }
}

=== FILE: renderer.dfy ===
/** `ViewRenderer`: turns a view into HTML. The template is located (or taken
    inline), parsed into an element tree inside a synthetic `<div>`,
    attributes are applied bottom-up, and the tree is rendered variant by
    variant: collections and slots join their members with newlines, text
    interpolates `{{ $expr }}`, generic elements serialise as tags unless a
    view component is registered for the tag, in which case the component's
    output has its `<x-slot/>` placeholders filled from the captured slots. */
module Renderer {
  import opened Wrappers
  import opened Strings
  import opened Elements
  import opened Scanner
  import Interpolation
  import Placeholders

  /** `PHP_EOL` on the platforms the framework targets. */
  const EOL: string := "\n"

  /** A view component object; what it renders is the renderer's
      `renderComponent` collaborator, so here it only has an identity. */
  datatype Component = Component(id: string)

  /** An entry of the component registry: a ready-made component, or the
      name of a class the container builds. */
  datatype ComponentRef = Instance(component: Component) | ClassName(name: string)

  /** `View {path} not found`, naming the last location tried. */
  datatype RenderError = ViewNotFound(path: string)

  function Message(e: RenderError): (m: string)
    ensures StartsWith(m, "View ") && EndsWith(m, " not found")
    ensures |m| == |e.path| + 15 && m[5..|m| - 10] == e.path
  {
    "View " + e.path + " not found"
  }

  /** The renderer and its collaborators, none of whose source is part of
      this model:
      - `makeElement`: the DOM parser loading the markup plus
        `ElementFactory::make` on the root's first child;
      - `applyAttribute`: `AttributeFactory::make` followed by `Attribute::apply`;
      - `discoveryLocations`: the roots of `AppConfig::$discoveryLocations`, in order;
      - `viewComponents`: `ViewConfig::$viewComponents`, tag to component;
      - `container`: `Container::get` on a class name;
      - `renderComponent`: `ViewComponent::render`;
      - `fileExists`, `joinPath`: `file_exists` and the `path()` helper;
      - `runInline`, `includeFile`: the output captured from `eval` of inline
        markup and from `include` of a template file;
      - `capturesSlot`: whether a child of a component invocation is the
        slot `GenericElement::getSlot` returns for a name. */
  datatype ViewRenderer = ViewRenderer(
    makeElement: (View, string) -> Element,
    applyAttribute: (View, string, AttrValue, Element) -> Element,
    discoveryLocations: seq<string>,
    viewComponents: map<string, ComponentRef>,
    container: string -> Component,
    renderComponent: (Component, Element) -> string,
    fileExists: string -> bool,
    joinPath: (string, string) -> string,
    runInline: string -> string,
    includeFile: string -> string,
    capturesSlot: (Element, string) -> bool
  )

  /** Different missing paths give different messages. */
  lemma MessageNamesPath(a: RenderError, b: RenderError)
    requires Message(a) == Message(b)
    ensures a == b
  {
    var m := Message(a);
    assert a.path == m[5..|m| - 10] == b.path;
  }

  // ---------------------------------------------------------------------
  // Component resolution

  /** `resolveViewComponent`: the component registered for a tag. A class
      name is built by the container; an absent entry or a falsy class name
      (`''` or `'0'`) gives none. */
  function ResolveViewComponent(r: ViewRenderer, tag: string): (c: Option<Component>)
    ensures c.None? <==> tag !in r.viewComponents
                         || (r.viewComponents[tag].ClassName? && !IsTruthy(Str(r.viewComponents[tag].name)))
    ensures c.Some? ==> (r.viewComponents[tag].Instance? && c.value == r.viewComponents[tag].component)
                        || (r.viewComponents[tag].ClassName? && c.value == r.container(r.viewComponents[tag].name))
  {
    if tag !in r.viewComponents then None
    else match r.viewComponents[tag]
      case Instance(component) => Some(component)
      case ClassName(name) => if IsTruthy(Str(name)) then Some(r.container(name)) else None
  }

  // ---------------------------------------------------------------------
  // Attribute serialisation

  /** One attribute as a generic tag writes it: `name="value"` for a truthy
      value, the bare name for a falsy one. */
  function AttributePiece(name: string, value: AttrValue): (piece: string)
    ensures StartsWith(piece, name)
    ensures piece == name <==> !IsTruthy(value)
    ensures IsTruthy(value) ==> piece[|name|..] == "=\"" + AsString(value) + "\""
  {
    if IsTruthy(value) then name + "=\"" + AsString(value) + "\"" else name
  }

  function AttributePieces(attrs: Attributes): (pieces: seq<string>)
    ensures |pieces| == |attrs|
    ensures forall k :: 0 <= k < |attrs| ==> pieces[k] == AttributePiece(attrs[k].0, attrs[k].1)
  {
    if attrs == [] then []
    else AttributePieces(attrs[..|attrs| - 1]) + [AttributePiece(attrs[|attrs| - 1].0, attrs[|attrs| - 1].1)]
  }

  /** The attribute part of a generic tag: the pieces joined by single
      spaces, preceded by one space when that joined string is non-empty. */
  function AttributeString(attrs: Attributes): (s: string)
    ensures s == "" || s[0] == ' '
    ensures attrs == [] ==> s == ""
    ensures attrs != [] && attrs[|attrs| - 1].0 != "" ==> s != ""
  {
    var joined := Join(" ", AttributePieces(attrs));
    assert attrs != [] && attrs[|attrs| - 1].0 != "" ==> joined != "" by {
      if attrs != [] && attrs[|attrs| - 1].0 != "" {
        JoinEndsWithLast(attrs);
      }
    }
    if joined != "" then " " + joined else ""
  }

  /** A reference reading of the attribute part: each attribute, in
      insertion order, preceded by one space. */
  function Spaced(attrs: Attributes): string
  {
    if attrs == [] then ""
    else Spaced(attrs[..|attrs| - 1]) + " " + AttributePiece(attrs[|attrs| - 1].0, attrs[|attrs| - 1].1)
  }

  /** A lone attribute with an empty name and a falsy value: the one list
      whose joined pieces are empty although the list is not. */
  predicate LoneBlank(attrs: Attributes)
  {
    |attrs| == 1 && attrs[0].0 == "" && !IsTruthy(attrs[0].1)
  }

  /** The attribute part is exactly one space before each attribute, in
      insertion order, for every list but the lone blank one. */
  lemma {:induction false} AttributeStringSpaced(attrs: Attributes)
    ensures AttributeString(attrs) == Spaced(attrs) <==> !LoneBlank(attrs)
  {
    if attrs != [] {
      SpacedJoin(attrs);
      var pieces := AttributePieces(attrs);
      if |attrs| == 1 {
        assert Join(" ", pieces) == pieces[0] == AttributePiece(attrs[0].0, attrs[0].1);
        if LoneBlank(attrs) {
          assert AttributeString(attrs) == "" != Spaced(attrs);
        } else {
          assert pieces[0] != "";
        }
      } else {
        assert Join(" ", pieces) == Join(" ", pieces[..|pieces| - 1]) + " " + pieces[|pieces| - 1];
      }
    }
  }

  /** The joined pieces are the spaced form without its first space. */
  lemma {:induction false} SpacedJoin(attrs: Attributes)
    requires attrs != []
    ensures Spaced(attrs) == " " + Join(" ", AttributePieces(attrs))
    decreases |attrs|
  {
    var init := attrs[..|attrs| - 1];
    var last := attrs[|attrs| - 1];
    var lp := AttributePiece(last.0, last.1);
    var pieces := AttributePieces(attrs);
    assert pieces == AttributePieces(init) + [lp];
    assert pieces[..|pieces| - 1] == AttributePieces(init) && pieces[|pieces| - 1] == lp;
    assert Spaced(attrs) == Spaced(init) + " " + lp;
    if init == [] {
      assert Join(" ", pieces) == lp;
    } else {
      SpacedJoin(init);
      assert Join(" ", pieces) == Join(" ", AttributePieces(init)) + " " + lp;
    }
  }

  /** A non-empty list of attributes whose last one has a name joins to a
      non-empty string. */
  lemma JoinEndsWithLast(attrs: Attributes)
    requires attrs != [] && attrs[|attrs| - 1].0 != ""
    ensures Join(" ", AttributePieces(attrs)) != ""
  {
    var pieces := AttributePieces(attrs);
    var last := attrs[|attrs| - 1];
    assert pieces[|pieces| - 1] == AttributePiece(last.0, last.1);
    assert |AttributePiece(last.0, last.1)| >= |last.0| > 0;
    if |pieces| > 1 {
      assert Join(" ", pieces) == Join(" ", pieces[..|pieces| - 1]) + " " + pieces[|pieces| - 1];
    }
  }

  /** The leading space follows the joined string, not the list: a lone
      attribute with an empty name and a falsy value leaves no space at all. */
  lemma AttributeStringEmptyName()
    ensures AttributeString([("", Null)]) == ""
    ensures Spaced([("", Null)]) == " "
  {
    assert AttributePieces([("", Null)]) == [""];
  }

  /** A truthy value is quoted, a falsy one (here `'0'`) leaves the bare
      name: ` class="a" hidden`. */
  lemma AttributeStringTruthiness()
    ensures AttributeString([("class", Str("a")), ("hidden", Str("0"))]) == " class=\"a\" hidden"
  {
    var a1 := [("class", Str("a"))];
    var a2 := a1 + [("hidden", Str("0"))];
    assert a2 == [("class", Str("a")), ("hidden", Str("0"))];
    assert forall k :: 0 <= k < |a2| ==> a2[k].0 != "";
    AttributeStringSpaced(a2);
    assert a2[..1] == a1 && a1[..0] == [];
    assert Spaced(a1) == " class=\"a\"";
    assert !IsTruthy(Str("0")) by { assert "0" != ""; }
    assert Spaced(a2) == " class=\"a\" hidden";
  }

  // ---------------------------------------------------------------------
  // Rendering

  /** `renderElement`: dispatch over the element variants. An empty
      element renders as nothing, a text element as its interpolated text, a
      generic element with a component as the component's output with its
      placeholders filled (`GenericTagPair` covers the other generic case). */
  function RenderElement(r: ViewRenderer, v: View, e: Element): (out: string)
    ensures e.EmptyElement? ==> out == ""
    ensures e.TextElement? ==> out == Interpolation.Interpolate(v, e.data, e.text)
    ensures e.GenericElement? && ResolveViewComponent(r, e.tag).Some? ==>
              out == Substitute(r, v, e, Placeholders.Pieces(r.renderComponent(ResolveViewComponent(r, e.tag).value, e)))
    decreases e, 2
  {
    match e
    case CollectionElement(_, _, members) => Join(EOL, RenderAll(r, v, members))
    case TextElement(text, data) => Interpolation.Interpolate(v, data, text)
    case EmptyElement => ""
    case SlotElement(_, _, children) => Join(EOL, RenderAll(r, v, children))
    case GenericElement(tag, attrs, children) =>
      match ResolveViewComponent(r, tag)
      case None => "<" + tag + AttributeString(attrs) + ">" + Concat(RenderAll(r, v, children)) + "</" + tag + ">"
      case Some(c) => Substitute(r, v, e, Placeholders.Pieces(r.renderComponent(c, e)))
  }

  /** Each element rendered on its own, in order (the `foreach` that
      `renderElements`, `renderCollectionElement`, `renderSlotElement` and
      `renderGenericElement` share). */
  function RenderAll(r: ViewRenderer, v: View, es: seq<Element>): (out: seq<string>)
    ensures |out| == |es|
    ensures forall k :: 0 <= k < |es| ==> out[k] == RenderElement(r, v, es[k])
    decreases es, 1
  {
    if es == [] then []
    else RenderAll(r, v, es[..|es| - 1]) + [RenderElement(r, v, es[|es| - 1])]
  }

  /** `renderViewComponent`'s callback over the scanned component output:
      text is copied, a placeholder becomes the rendering of the slot it
      names, or stays as it was when no such slot was captured. */
  function Substitute(r: ViewRenderer, v: View, e: Element, pieces: seq<Piece<string>>): (out: string)
    requires e.GenericElement?
    decreases e, 1, |pieces|
  {
    if pieces == [] then ""
    else
      var head :=
        match pieces[0]
        case Char(c) => [c]
        case Found(raw, name) => Fill(r, v, e, raw, name);
      head + Substitute(r, v, e, pieces[1..])
  }

  /** What one placeholder asking for `name` becomes: the rendering of the
      slot captured under that name, or the placeholder's own text. */
  function Fill(r: ViewRenderer, v: View, e: Element, raw: string, name: string): (out: string)
    requires e.GenericElement?
    ensures (forall j :: 0 <= j < |e.children| ==> !r.capturesSlot(e.children[j], name)) ==> out == raw
    decreases e, 0
  {
    match GetSlot(e.children, name, r.capturesSlot)
    case None => raw
    case Some(k) => RenderElement(r, v, e.children[k])
  }

  /** `renderElements`: the top-level elements concatenated with nothing between. */
  function RenderElements(r: ViewRenderer, v: View, es: seq<Element>): (out: string)
    ensures es == [] ==> out == ""
    ensures |es| == 1 ==> out == RenderElement(r, v, es[0])
  {
    Concat(RenderAll(r, v, es))
  }

  // ---------------------------------------------------------------------
  // Properties of rendering

  /** Rendering a list is rendering its two halves. */
  lemma {:induction false} RenderAllAppend(r: ViewRenderer, v: View, a: seq<Element>, b: seq<Element>)
    ensures RenderAll(r, v, a + b) == RenderAll(r, v, a) + RenderAll(r, v, b)
    decreases |b|
  {
    if b == [] {
      assert a + b == a;
    } else {
      var b' := b[..|b| - 1];
      assert (a + b)[..|a + b| - 1] == a + b';
      assert (a + b)[|a + b| - 1] == b[|b| - 1];
      RenderAllAppend(r, v, a, b');
    }
  }

  /** Top-level (and generic) children are concatenated with nothing
      between them: rendering splits over any cut of the list. */
  lemma RenderElementsAppend(r: ViewRenderer, v: View, a: seq<Element>, b: seq<Element>)
    ensures RenderElements(r, v, a + b) == RenderElements(r, v, a) + RenderElements(r, v, b)
  {
    RenderAllAppend(r, v, a, b);
    ConcatAppend(RenderAll(r, v, a), RenderAll(r, v, b));
  }

  /** A collection renders its members in order with one newline between
      neighbours: appending a member appends a newline and its rendering. */
  lemma CollectionAppend(r: ViewRenderer, v: View, name: Option<string>, attrs: Attributes,
                         members: seq<Element>, x: Element)
    requires members != []
    ensures RenderElement(r, v, CollectionElement(name, attrs, members + [x]))
         == RenderElement(r, v, CollectionElement(name, attrs, members)) + EOL + RenderElement(r, v, x)
  {
    RenderAllAppend(r, v, members, [x]);
    JoinSplit(EOL, RenderAll(r, v, members), [RenderElement(r, v, x)]);
  }

  /** A slot element renders its children like a collection: in order, one
      newline between neighbours. */
  lemma SlotAppend(r: ViewRenderer, v: View, slotName: string, attrs: Attributes,
                   children: seq<Element>, x: Element)
    requires children != []
    ensures RenderElement(r, v, SlotElement(slotName, attrs, children + [x]))
         == RenderElement(r, v, SlotElement(slotName, attrs, children)) + EOL + RenderElement(r, v, x)
  {
    RenderAllAppend(r, v, children, [x]);
    JoinSplit(EOL, RenderAll(r, v, children), [RenderElement(r, v, x)]);
  }

  /** No newline is added around a lone member, an empty collection or slot
      renders as '', and so does an empty element. */
  lemma JoinEdges(r: ViewRenderer, v: View, name: Option<string>, attrs: Attributes, slotName: string, x: Element)
    ensures RenderElement(r, v, CollectionElement(name, attrs, [x])) == RenderElement(r, v, x)
    ensures RenderElement(r, v, SlotElement(slotName, attrs, [x])) == RenderElement(r, v, x)
    ensures RenderElement(r, v, CollectionElement(name, attrs, [])) == ""
    ensures RenderElement(r, v, SlotElement(slotName, attrs, [])) == ""
    ensures RenderElement(r, v, EmptyElement) == ""
  {
    assert RenderAll(r, v, [x]) == [RenderElement(r, v, x)];
  }

  /** Text without `{{` is rendered as it stands. */
  lemma PlainTextUnchanged(r: ViewRenderer, v: View, text: string, data: map<string, string>)
    requires forall k :: 0 <= k < |text| - 1 ==> !(text[k] == '{' && text[k + 1] == '{')
    ensures RenderElement(r, v, TextElement(text, data)) == text
  {
  }

  /** A generic element whose tag has no component serialises as
      `<tag attrs>children</tag>`: every attribute preceded by one space in
      insertion order, the children concatenated with nothing between. */
  lemma UnregisteredTagRendersGeneric(r: ViewRenderer, v: View, e: Element)
    requires e.GenericElement? && ResolveViewComponent(r, e.tag).None?
    requires !LoneBlank(e.attributes)
    ensures RenderElement(r, v, e)
         == "<" + e.tag + Spaced(e.attributes) + ">" + RenderElements(r, v, e.children) + "</" + e.tag + ">"
  {
    AttributeStringSpaced(e.attributes);
  }

  /** Whatever its attributes, a generic element without a component is
      written as a tag pair: it opens with `<tag` and closes with `</tag>`,
      and the rendering of its children sits right before the closing tag. */
  lemma GenericTagPair(r: ViewRenderer, v: View, e: Element)
    requires e.GenericElement? && ResolveViewComponent(r, e.tag).None?
    ensures var out, open, close := RenderElement(r, v, e), "<" + e.tag, "</" + e.tag + ">";
            var content := RenderElements(r, v, e.children);
            && StartsWith(out, open)
            && EndsWith(out, close)
            && |content| + |close| <= |out|
            && out[|out| - |close| - |content|..|out| - |close|] == content
  {
    var open, close := "<" + e.tag, "</" + e.tag + ">";
    var content := RenderElements(r, v, e.children);
    var head := open + AttributeString(e.attributes) + ">";
    var out := head + content + close;
    assert RenderElement(r, v, e) == out;
    assert out[..|open|] == open;
    assert out[|out| - |close|..] == close;
    assert out[|head|..|head| + |content|] == content;
  }

  /** Substitution works piece by piece: over two runs of pieces it is the
      substitution of the first run followed by that of the second. */
  lemma {:induction false} SubstituteAppend(r: ViewRenderer, v: View, e: Element, a: seq<Piece<string>>, b: seq<Piece<string>>)
    requires e.GenericElement?
    ensures Substitute(r, v, e, a + b) == Substitute(r, v, e, a) + Substitute(r, v, e, b)
    decreases |a|
  {
    if a == [] {
      assert a + b == b;
    } else {
      assert (a + b)[0] == a[0] && (a + b)[1..] == a[1..] + b;
      SubstituteAppend(r, v, e, a[1..], b);
    }
  }

  /** Copied characters of the component output come out as themselves. */
  lemma {:induction false} SubstituteChars(r: ViewRenderer, v: View, e: Element, s: string, i: nat, j: nat,
                                           rest: seq<Piece<string>>)
    requires e.GenericElement? && i <= j <= |s|
    ensures Substitute(r, v, e, Chars(s, i, j) + rest) == s[i..j] + Substitute(r, v, e, rest)
    decreases j - i
  {
    if i < j {
      var tail := Chars(s, i + 1, j) + rest;
      var pieces := [Char(s[i])] + tail;
      assert Chars(s, i, j) + rest == pieces;
      assert pieces[0] == Char(s[i]) && pieces[1..] == tail;
      SubstituteChars(r, v, e, s, i + 1, j, rest);
      assert s[i..j] == [s[i]] + s[i + 1..j];
    } else {
      assert Chars<string>(s, i, j) + rest == rest;
    }
  }

  /** When no placeholder names a captured slot, substitution gives back
      the scanned text verbatim. */
  lemma {:induction false} SubstituteNothing(r: ViewRenderer, v: View, e: Element, pieces: seq<Piece<string>>)
    requires e.GenericElement?
    requires forall k :: 0 <= k < |pieces| && pieces[k].Found? ==> GetSlot(e.children, pieces[k].capture, r.capturesSlot).None?
    ensures Substitute(r, v, e, pieces) == Raw(pieces)
    decreases |pieces|
  {
    if pieces != [] {
      assert forall k :: 0 <= k < |pieces[1..]| ==> pieces[1..][k] == pieces[k + 1];
      SubstituteNothing(r, v, e, pieces[1..]);
    }
  }

  /** A component invoked without any child captured as a slot renders
      exactly as the component's own output: every placeholder in it stays
      as written. */
  lemma ComponentWithoutSlots(r: ViewRenderer, v: View, e: Element, c: Component)
    requires e.GenericElement? && ResolveViewComponent(r, e.tag) == Some(c)
    requires forall j, name :: 0 <= j < |e.children| ==> !r.capturesSlot(e.children[j], name)
    ensures RenderElement(r, v, e) == r.renderComponent(c, e)
  {
    var out := r.renderComponent(c, e);
    SubstituteNothing(r, v, e, Placeholders.Pieces(out));
    ScanSpellsSubject(out, 0, Placeholders.Finder(out));
    assert out[0..] == out;
  }

  /** Substitution over the pieces of a text with one placeholder. */
  lemma SubstituteOnePiece(r: ViewRenderer, v: View, e: Element, s: string, p: nat, q: nat, raw: string, name: string)
    requires e.GenericElement? && p <= q <= |s|
    ensures Substitute(r, v, e, Chars(s, 0, p) + ([Found(raw, name)] + Chars(s, q, |s|)))
         == s[..p] + Fill(r, v, e, raw, name) + s[q..]
  {
    var mid := Found(raw, name);
    var tail := Chars<string>(s, q, |s|);
    SubstituteChars(r, v, e, s, 0, p, [mid] + tail);
    assert ([mid] + tail)[1..] == tail + [];
    SubstituteChars(r, v, e, s, q, |s|, []);
    assert Substitute(r, v, e, [mid] + tail) == Fill(r, v, e, raw, name) + Substitute(r, v, e, tail + []);
  }

  /** Component output with one placeholder amid text without `<`: the text
      around it is copied, and the placeholder becomes the rendering of the
      slot it names, or stays verbatim when no such slot was captured. */
  lemma SubstituteOneTag(r: ViewRenderer, v: View, e: Element, pre: string, tag: string, post: string, name: string)
    requires e.GenericElement?
    requires forall k :: 0 <= k < |pre| ==> pre[k] != '<'
    requires forall k :: 0 <= k < |post| ==> post[k] != '<'
    requires |tag| > 0
    requires Placeholders.Find(pre + tag + post, |pre|) == Some((|pre| + |tag|, name))
    ensures Substitute(r, v, e, Placeholders.Pieces(pre + tag + post)) == pre + Fill(r, v, e, tag, name) + post
  {
    var s := pre + tag + post;
    var p, q := |pre|, |pre| + |tag|;
    var pieces := Chars(s, 0, p) + ([Found(tag, name)] + Chars(s, q, |s|));
    Placeholders.OneTagPieces(pre, tag, post, name);
    assert Placeholders.Pieces(s) == pieces;
    SubstituteOnePiece(r, v, e, s, p, q, tag, name);
    assert s[..p] == pre && s[q..] == post;
    assert Substitute(r, v, e, pieces) == pre + Fill(r, v, e, tag, name) + post;
  }

  /** A component whose output holds one placeholder amid text without
      `<` renders as that text with the placeholder filled. */
  lemma ComponentOneTag(r: ViewRenderer, v: View, e: Element, c: Component, pre: string, tag: string, post: string, name: string)
    requires e.GenericElement? && ResolveViewComponent(r, e.tag) == Some(c)
    requires r.renderComponent(c, e) == pre + tag + post
    requires forall j :: 0 <= j < |pre| ==> pre[j] != '<'
    requires forall j :: 0 <= j < |post| ==> post[j] != '<'
    requires |tag| > 0
    requires Placeholders.Find(pre + tag + post, |pre|) == Some((|pre| + |tag|, name))
    ensures RenderElement(r, v, e) == pre + Fill(r, v, e, tag, name) + post
  {
    assert RenderElement(r, v, e) == Substitute(r, v, e, Placeholders.Pieces(pre + tag + post));
    SubstituteOneTag(r, v, e, pre, tag, post, name);
  }

  /** `<x-slot name="N"/>` in a component's output is replaced by the
      rendering of the slot captured under `N`. */
  lemma NamedSlotFilled(r: ViewRenderer, v: View, e: Element, c: Component, pre: string, name: string, post: string, k: nat)
    requires e.GenericElement? && ResolveViewComponent(r, e.tag) == Some(c)
    requires r.renderComponent(c, e) == pre + Placeholders.NamedTag(name) + post
    requires forall j :: 0 <= j < |pre| ==> pre[j] != '<'
    requires forall j :: 0 <= j < |post| ==> post[j] != '<'
    requires |name| > 0 && forall j :: 0 <= j < |name| ==> IsWord(name[j])
    requires GetSlot(e.children, name, r.capturesSlot) == Some(k)
    ensures RenderElement(r, v, e) == pre + RenderElement(r, v, e.children[k]) + post
  {
    var tag := Placeholders.NamedTag(name);
    Placeholders.NamedPlaceholderFound(pre, name, post);
    ComponentOneTag(r, v, e, c, pre, tag, post, name);
    assert Fill(r, v, e, tag, name) == RenderElement(r, v, e.children[k]);
  }

  /** `<x-slot name="N"/>` naming a slot that was not captured stays in the
      output exactly as the component wrote it. */
  lemma MissingSlotVerbatim(r: ViewRenderer, v: View, e: Element, c: Component, pre: string, name: string, post: string)
    requires e.GenericElement? && ResolveViewComponent(r, e.tag) == Some(c)
    requires r.renderComponent(c, e) == pre + Placeholders.NamedTag(name) + post
    requires forall j :: 0 <= j < |pre| ==> pre[j] != '<'
    requires forall j :: 0 <= j < |post| ==> post[j] != '<'
    requires |name| > 0 && forall j :: 0 <= j < |name| ==> IsWord(name[j])
    requires forall j :: 0 <= j < |e.children| ==> !r.capturesSlot(e.children[j], name)
    ensures RenderElement(r, v, e) == r.renderComponent(c, e)
  {
    var tag := Placeholders.NamedTag(name);
    Placeholders.NamedPlaceholderFound(pre, name, post);
    ComponentOneTag(r, v, e, c, pre, tag, post, name);
    assert Fill(r, v, e, tag, name) == tag;
  }

  /** `<x-slot/>` asks for the slot named "slot" (not `Slot::DEFAULT`). */
  lemma BareSlotFilled(r: ViewRenderer, v: View, e: Element, c: Component, pre: string, post: string, k: nat)
    requires e.GenericElement? && ResolveViewComponent(r, e.tag) == Some(c)
    requires r.renderComponent(c, e) == pre + Placeholders.BARE_TAG + post
    requires forall j :: 0 <= j < |pre| ==> pre[j] != '<'
    requires forall j :: 0 <= j < |post| ==> post[j] != '<'
    requires GetSlot(e.children, "slot", r.capturesSlot) == Some(k)
    ensures RenderElement(r, v, e) == pre + RenderElement(r, v, e.children[k]) + post
  {
    Placeholders.BarePlaceholderFound(pre, post);
    ComponentOneTag(r, v, e, c, pre, Placeholders.BARE_TAG, post, Placeholders.UNNAMED);
    assert Fill(r, v, e, Placeholders.BARE_TAG, Placeholders.UNNAMED) == RenderElement(r, v, e.children[k]);
  }
}

=== FILE: scanner.dfy ===
/** The scan `preg_replace_callback` performs over its subject: at each
    position, if the pattern matches there, the match is handed to the
    callback and the scan resumes after it; otherwise one character is
    copied through and the scan moves on by one. The pattern is given as a
    finder that reports, for a position, the end of the match found there and
    what it captured. */
module Scanner {
  import opened Wrappers

  /** A stretch of the subject: one copied character, or one match with its
      raw text and its captures. */
  datatype Piece<M> = Char(c: char) | Found(raw: string, capture: M)

  /** Every match the finder reports inside `s` is non-empty and ends within `s`. */
  predicate FinderWithin<M>(s: string, find: nat -> Option<(nat, M)>)
  {
    forall k: nat :: k < |s| && find(k).Some? ==> k < find(k).value.0 <= |s|
  }

  function Scan<M>(s: string, i: nat, find: nat -> Option<(nat, M)>): (out: seq<Piece<M>>)
    requires i <= |s| && FinderWithin(s, find)
    ensures |out| <= |s| - i
    ensures out == [] <==> i == |s|
    decreases |s| - i
  {
    if i == |s| then []
    else match find(i)
      case Some((e, m)) => [Found(s[i..e], m)] + Scan(s, e, find)
      case None => [Char(s[i])] + Scan(s, i + 1, find)
  }

  function RawText<M>(p: Piece<M>): string
  {
    match p
    case Char(c) => [c]
    case Found(raw, _) => raw
  }

  function Raw<M>(pieces: seq<Piece<M>>): string
  {
    if pieces == [] then "" else RawText(pieces[0]) + Raw(pieces[1..])
  }

  /** The characters `s[i..j]`, each copied through. */
  function Chars<M>(s: string, i: nat, j: nat): seq<Piece<M>>
    requires i <= j <= |s|
    decreases j - i
  {
    if i == j then [] else [Char(s[i])] + Chars(s, i + 1, j)
  }

  /** The scan loses, adds and reorders nothing: its pieces spell out the subject. */
  lemma {:induction false} ScanSpellsSubject<M>(s: string, i: nat, find: nat -> Option<(nat, M)>)
    requires i <= |s| && FinderWithin(s, find)
    ensures Raw(Scan(s, i, find)) == s[i..]
    decreases |s| - i
  {
    if i < |s| {
      var pieces := Scan(s, i, find);
      var next := if find(i).Some? then find(i).value.0 else i + 1;
      assert pieces[1..] == Scan(s, next, find);
      assert RawText(pieces[0]) == s[i..next];
      ScanSpellsSubject(s, next, find);
      assert s[i..] == s[i..next] + s[next..];
    }
  }

  /** Where no match starts, the subject is copied one character at a time. */
  lemma {:induction false} ScanCopiesUnmatched<M>(s: string, i: nat, j: nat, find: nat -> Option<(nat, M)>)
    requires i <= j <= |s| && FinderWithin(s, find)
    requires forall k: nat :: i <= k < j ==> find(k).None?
    ensures Scan(s, i, find) == Chars(s, i, j) + Scan(s, j, find)
    decreases j - i
  {
    if i < j {
      assert Scan(s, i, find) == [Char(s[i])] + Scan(s, i + 1, find);
      ScanCopiesUnmatched(s, i + 1, j, find);
      assert Chars<M>(s, i, j) == [Char(s[i])] + Chars(s, i + 1, j);
      assert [Char(s[i])] + (Chars(s, i + 1, j) + Scan(s, j, find))
          == ([Char(s[i])] + Chars<M>(s, i + 1, j)) + Scan(s, j, find);
    } else {
      assert Chars<M>(s, i, j) + Scan(s, j, find) == Scan(s, j, find);
    }
  }

  /** A subject holding exactly one match: the characters before it, the
      match, the characters after it. */
  lemma ScanOneMatch<M>(s: string, p: nat, e: nat, m: M, find: nat -> Option<(nat, M)>)
    requires p < e <= |s| && FinderWithin(s, find)
    requires find(p) == Some((e, m))
    requires forall k: nat :: k < p ==> find(k).None?
    requires forall k: nat :: e <= k < |s| ==> find(k).None?
    ensures Scan(s, 0, find) == Chars(s, 0, p) + ([Found(s[p..e], m)] + Chars(s, e, |s|))
  {
    ScanCopiesUnmatched(s, 0, p, find);
    ScanCopiesUnmatched(s, e, |s|, find);
    assert Scan(s, p, find) == [Found(s[p..e], m)] + Scan(s, e, find);
    assert Scan(s, e, find) == Chars(s, e, |s|) + [];
  }

  /** Every match piece of the scan is a match the finder reports at the
      position where the piece starts. */
  lemma {:induction false} ScanFoundAreMatches<M>(s: string, i: nat, find: nat -> Option<(nat, M)>, n: nat)
    requires i <= |s| && FinderWithin(s, find)
    requires n < |Scan(s, i, find)| && Scan(s, i, find)[n].Found?
    ensures exists p: nat :: i <= p < |s| && find(p).Some?
              && Scan(s, i, find)[n] == Found(s[p..find(p).value.0], find(p).value.1)
    decreases |s| - i
  {
    match find(i)
    case Some((e, m)) =>
      if n > 0 {
        ScanFoundAreMatches(s, e, find, n - 1);
        assert Scan(s, i, find)[n] == Scan(s, e, find)[n - 1];
      }
    case None =>
      ScanFoundAreMatches(s, i + 1, find, n - 1);
      assert Scan(s, i, find)[n] == Scan(s, i + 1, find)[n - 1];
  }

  /** The piece at index `n` starts at `p`, the length of the text the
      earlier pieces spell past `i`. It is a copied character exactly when
      the finder reports no match at `p`, and otherwise it is the match
      reported there: the scan skips no position where a match starts. */
  lemma {:induction false} ScanPieceAt<M>(s: string, i: nat, find: nat -> Option<(nat, M)>, n: nat, p: nat)
    requires i <= |s| && FinderWithin(s, find)
    requires n < |Scan(s, i, find)| && p == i + |Raw(Scan(s, i, find)[..n])|
    ensures p < |s|
    ensures Scan(s, i, find)[n].Char? <==> find(p).None?
    ensures find(p).None? ==> Scan(s, i, find)[n] == Char(s[p])
    ensures find(p).Some? ==> Scan(s, i, find)[n] == Found(s[p..find(p).value.0], find(p).value.1)
    decreases |s| - i
  {
    var pieces := Scan(s, i, find);
    var next := if find(i).Some? then find(i).value.0 else i + 1;
    assert pieces[1..] == Scan(s, next, find);
    if n == 0 {
      assert pieces[..n] == [];
    } else {
      var rest := Scan(s, next, find);
      var head := pieces[..n];
      assert head[0] == pieces[0] && head[1..] == rest[..n - 1];
      assert |RawText(pieces[0])| == next - i;
      assert |Raw(head)| == (next - i) + |Raw(rest[..n - 1])|;
      assert pieces[n] == rest[n - 1];
      ScanPieceAt(s, next, find, n - 1, p);
    }
  }
}

=== FILE: slot.dfy ===
/** `Slot`: the immutable value a component invocation captures for one named
    block of content — its name, a copy of the element's attributes, and the
    element's already-compiled text. */
module Slots {
  import opened Wrappers
  import opened Elements

  /** `Slot::DEFAULT`. */
  const DEFAULT: string := "default"

  datatype Slot = Slot(name: string, attributes: Attributes, content: string)

  /** `new Slot(name, attributes, content)`: every argument is stored as given. */
  function NewSlot(name: string, attributes: Attributes, content: string): (s: Slot)
    ensures s.name == name && s.attributes == attributes && s.content == content
  {
    Slot(name, attributes, content)
  }

  /** `__get($key)`: the attribute stored under `key`, or null when there is none. */
  function Get(slot: Slot, key: string): (r: AttrValue)
    ensures (forall i :: 0 <= i < |slot.attributes| ==> slot.attributes[i].0 != key) ==> r == Null
    ensures (exists i :: 0 <= i < |slot.attributes| && slot.attributes[i].0 == key)
              ==> exists i :: 0 <= i < |slot.attributes| && slot.attributes[i] == (key, r)
  {
    Lookup(slot.attributes, key).GetOr(Null)
  }

  /** `Slot::fromElement`: capture a slot or collection element.
      `nameOf` is what `$element->name` reads from outside the element: a
      slot element keeps its name in a private property, so whether that
      read yields anything depends on the element's own accessors, which are
      not part of this model. Whatever the variant, a name that reads as
      null falls back to `DEFAULT`. `compile` is the element's own
      `compile()`, so the content is whatever text it produces. */
  function FromElement(e: Element, nameOf: Element -> Option<string>, compile: Element -> string): (s: Slot)
    requires e.SlotElement? || e.CollectionElement?
    ensures nameOf(e).Some? ==> s.name == nameOf(e).value
    ensures nameOf(e).None? ==> s.name == DEFAULT
    ensures s.attributes == e.attributes
    ensures s.content == compile(e)
  {
    NewSlot(nameOf(e).GetOr(DEFAULT), e.attributes, compile(e))
  }

  /** The name of a collection element as a public read sees it. */
  function CollectionName(e: Element): Option<string>
  {
    if e.CollectionElement? then e.name else None
  }

  /** A collection element is captured under its own name, or `DEFAULT` when it has none. */
  lemma CollectionSlotName(e: Element, compile: Element -> string)
    requires e.CollectionElement?
    ensures FromElement(e, CollectionName, compile).name == (if e.name.Some? then e.name.value else DEFAULT)
  {
  }

  /** Reading an attribute of a captured slot reads the element's own attribute. */
  lemma FromElementKeepsAttributes(e: Element, nameOf: Element -> Option<string>, compile: Element -> string, i: nat)
    requires e.SlotElement? || e.CollectionElement?
    requires UniqueKeys(e.attributes) && i < |e.attributes|
    ensures Get(FromElement(e, nameOf, compile), e.attributes[i].0) == e.attributes[i].1
  {
    LookupFinds(e.attributes, i);
  }

  /** A value in the array handed to `__set_state`. */
  datatype StateValue = StringValue(s: string) | ArrayValue(a: Attributes)

  /** Why `new self(...$array)` throws: an unknown named parameter, a
      required parameter not passed, or (under strict types) a value of the
      wrong type. */
  datatype StateError = UnknownParameter | MissingArgument(param: string) | WrongType(param: string)

  /** The array `var_export` writes for a slot: its three public properties. */
  function ExportState(s: Slot): map<string, StateValue>
  {
    map["name" := StringValue(s.name), "attributes" := ArrayValue(s.attributes), "content" := StringValue(s.content)]
  }

  /** `Slot::__set_state($array)`, i.e. `new self(...$array)` with named arguments.
      PHP rejects an unknown name while binding. It then rejects a missing
      parameter that a later, passed one skips over. Last, entering the
      constructor, it takes the parameters in order: each one is reported
      missing, or ill-typed under strict types, before the next is looked at. */
  function SetState(a: map<string, StateValue>): (r: Result<Slot, StateError>)
    ensures r.Ok? <==> (a.Keys == {"name", "attributes", "content"}
                        && a["name"].StringValue? && a["attributes"].ArrayValue? && a["content"].StringValue?)
    ensures r.Ok? ==> r.value == Slot(a["name"].s, a["attributes"].a, a["content"].s)
  {
    if exists k :: k in a && k != "name" && k != "attributes" && k != "content" then Err(UnknownParameter)
    else if "name" !in a then Err(MissingArgument("name"))
    else if "attributes" !in a && "content" in a then Err(MissingArgument("attributes"))
    else if !a["name"].StringValue? then Err(WrongType("name"))
    else if "attributes" !in a then Err(MissingArgument("attributes"))
    else if !a["attributes"].ArrayValue? then Err(WrongType("attributes"))
    else if "content" !in a then Err(MissingArgument("content"))
    else if !a["content"].StringValue? then Err(WrongType("content"))
    else Ok(NewSlot(a["name"].s, a["attributes"].a, a["content"].s))
  }

  /** A parameter missing at the end is reported only after every earlier
      one was found passed and well-typed; a parameter missing before a
      passed one is reported before any type is checked. */
  lemma SetStateMissingOrder(a: map<string, StateValue>)
    ensures SetState(a) == Err(MissingArgument("content")) ==>
              "name" in a && a["name"].StringValue? && "attributes" in a && a["attributes"].ArrayValue?
    ensures SetState(a) == Err(MissingArgument("attributes")) && "content" in a ==>
              "name" in a && a.Keys <= {"name", "attributes", "content"}
  {
  }

  /** `["name" => [], "attributes" => []]`: the ill-typed `name` is reported,
      not the missing `content`. */
  lemma SetStateTypeBeforeTrailingGap()
    ensures SetState(map["name" := ArrayValue([]), "attributes" := ArrayValue([])]) == Err(WrongType("name"))
  {
    var a := map["name" := ArrayValue([]), "attributes" := ArrayValue([])];
    assert a.Keys == {"name", "attributes"};
  }

  /** Exporting a slot and restoring it gives back an equal slot. */
  lemma SetStateRoundTrip(s: Slot)
    ensures SetState(ExportState(s)) == Ok(s)
  {
    var a := ExportState(s);
    assert a.Keys == {"name", "attributes", "content"};
  }

  /** The only arrays `__set_state` accepts are exports: a restored slot
      re-exports to exactly the array it came from. */
  lemma SetStateOnlyFromExport(a: map<string, StateValue>, s: Slot)
    requires SetState(a) == Ok(s)
    ensures a == ExportState(s)
  {
    var b := ExportState(s);
    assert b.Keys == {"name", "attributes", "content"};
    assert a.Keys == b.Keys;
    forall k | k in a
      ensures a[k] == b[k]
    {
      assert k == "name" || k == "attributes" || k == "content";
    }
  }
}

=== FILE: slot_element.dfy ===
/** `SlotElement`: a slot node named once, at construction, and queried with
    an exact, case-sensitive name comparison. */
module SlotElements {
  import opened Elements

  /** `new SlotElement($name)`: a slot node with no attributes and no children yet. */
  function NewSlotElement(name: string): (e: Element)
    ensures e.SlotElement? && e.slotName == name
    ensures e.attributes == [] && e.children == []
  {
    SlotElement(name, [], [])
  }

  /** `matches($name)`: strict string equality with the construction name. */
  predicate Matches(e: Element, name: string)
    requires e.SlotElement?
  {
    e.slotName == name
  }

  /** A slot node matches a name exactly when the name is the one it was built with. */
  lemma MatchesIffConstructionName(name: string, query: string)
    ensures Matches(NewSlotElement(name), query) <==> query == name
  {
  }

  /** A slot node matches at most one name: no trimming, case folding or other
      normalisation lets two different names both match. */
  lemma MatchesAtMostOneName(e: Element, n1: string, n2: string)
    requires e.SlotElement?
    requires Matches(e, n1) && Matches(e, n2)
    ensures n1 == n2
  {
  }

  /** The comparison is case-sensitive and whitespace-sensitive. */
  lemma MatchesIsExact()
    ensures !Matches(NewSlotElement("header"), "Header")
    ensures !Matches(NewSlotElement("header"), " header")
    ensures !Matches(NewSlotElement("header"), "header ")
  {
    assert "Header"[0] != "header"[0];
    assert |" header"| != |"header"|;
    assert |"header "| != |"header"|;
  }

  /** The name is fixed at construction, so two slot nodes built from the same
      name answer every query alike, whatever children they acquire later. */
  lemma MatchesDependsOnlyOnName(e1: Element, e2: Element, query: string)
    requires e1.SlotElement? && e2.SlotElement? && e1.slotName == e2.slotName
    ensures Matches(e1, query) <==> Matches(e2, query)
  {
  }
}

=== FILE: strings.dfy ===
/** The few PHP string primitives the renderer leans on (`implode`, `trim`,
    `ltrim`, `str_starts_with`, `str_ends_with`) and the PCRE character
    classes its two patterns use, over `string` = `seq<char>`. */
module Strings {

  /** PCRE `\s` without the `u` modifier: space, tab, LF, VT, FF, CR. */
  predicate IsSpace(c: char)
  {
    c == ' ' || c == '\t' || c == '\n' || c == '\U{000B}' || c == '\U{000C}' || c == '\r'
  }

  /** PCRE `\w` without the `u` modifier and in the C locale. */
  predicate IsWord(c: char)
  {
    ('a' <= c <= 'z') || ('A' <= c <= 'Z') || ('0' <= c <= '9') || c == '_'
  }

  /** The characters PHP's `trim` removes by default: " \t\n\r\0\x0B". */
  predicate IsTrimmed(c: char)
  {
    c == ' ' || c == '\t' || c == '\n' || c == '\r' || c == '\0' || c == '\U{000B}'
  }

  predicate SpaceBetween(s: string, lo: int, hi: int)
    requires 0 <= lo <= hi <= |s|
  {
    forall k :: lo <= k < hi ==> IsSpace(s[k])
  }

  predicate WordBetween(s: string, lo: int, hi: int)
    requires 0 <= lo <= hi <= |s|
  {
    forall k :: lo <= k < hi ==> IsWord(s[k])
  }

  predicate TrimmedBetween(s: string, lo: int, hi: int)
    requires 0 <= lo <= hi <= |s|
  {
    forall k :: lo <= k < hi ==> IsTrimmed(s[k])
  }

  /** What a greedy `\s*` consumes from `i`: the longest run of spaces. */
  function SkipSpace(s: string, i: nat): (j: nat)
    requires i <= |s|
    ensures i <= j <= |s|
    ensures SpaceBetween(s, i, j)
    ensures j < |s| ==> !IsSpace(s[j])
    decreases |s| - i
  {
    if i < |s| && IsSpace(s[i]) then SkipSpace(s, i + 1) else i
  }

  /** What a greedy `\w+` consumes from `i` (the run may be empty). */
  function SkipWord(s: string, i: nat): (j: nat)
    requires i <= |s|
    ensures i <= j <= |s|
    ensures WordBetween(s, i, j)
    ensures j < |s| ==> !IsWord(s[j])
    decreases |s| - i
  {
    if i < |s| && IsWord(s[i]) then SkipWord(s, i + 1) else i
  }

  /** A run of spaces followed by a non-space ends where `SkipSpace` stops:
      backtracking a greedy `\s*` can never expose a non-space character. */
  lemma SpaceRunEnd(s: string, i: nat, k: nat)
    requires i <= k < |s|
    requires SpaceBetween(s, i, k) && !IsSpace(s[k])
    ensures k == SkipSpace(s, i)
  {
  }

  /** The same for a run of word characters. */
  lemma WordRunEnd(s: string, i: nat, k: nat)
    requires i <= k < |s|
    requires WordBetween(s, i, k) && !IsWord(s[k])
    ensures k == SkipWord(s, i)
  {
  }

  /** A slice of a slice is a slice of the original. */
  lemma SubSlice(s: string, a: nat, b: nat, c: nat, d: nat)
    requires a <= b <= |s| && c <= d <= b - a
    ensures s[a..b][c..d] == s[a + c..a + d]
  {
    assert forall k :: 0 <= k < d - c ==> s[a..b][c..d][k] == s[a + c + k];
  }

  /** The middle part of a concatenation is where it was put. */
  lemma SliceMiddle(pre: string, mid: string, post: string)
    ensures (pre + mid + post)[|pre|..|pre| + |mid|] == mid
  {
  }

  predicate StartsWith(s: string, prefix: string)
  {
    |prefix| <= |s| && s[..|prefix|] == prefix
  }

  predicate EndsWith(s: string, suffix: string)
  {
    |suffix| <= |s| && s[|s| - |suffix|..] == suffix
  }

  /** PHP `implode(sep, parts)`: the parts in order with `sep` between neighbours. */
  function Join(sep: string, parts: seq<string>): string
  {
    if |parts| == 0 then ""
    else if |parts| == 1 then parts[0]
    else Join(sep, parts[..|parts| - 1]) + sep + parts[|parts| - 1]
  }

  /** `implode('', parts)`. */
  function Concat(parts: seq<string>): string
  {
    Join("", parts)
  }

  /** Joining splits at any cut: the left part, one separator, the right part. */
  lemma {:induction false} JoinSplit(sep: string, a: seq<string>, b: seq<string>)
    requires |a| > 0 && |b| > 0
    ensures Join(sep, a + b) == Join(sep, a) + sep + Join(sep, b)
    decreases |b|
  {
    if |b| == 1 {
      assert (a + b)[..|a + b| - 1] == a;
    } else {
      var b' := b[..|b| - 1];
      assert (a + b)[..|a + b| - 1] == a + b';
      assert b'[..|b'|] == b';
      JoinSplit(sep, a, b');
    }
  }

  /** A joined list starts with its first part and ends with its last. */
  lemma {:induction false} JoinEnds(sep: string, parts: seq<string>)
    requires parts != []
    ensures StartsWith(Join(sep, parts), parts[0])
    ensures EndsWith(Join(sep, parts), parts[|parts| - 1])
    decreases |parts|
  {
    if |parts| > 1 {
      var init := parts[..|parts| - 1];
      JoinEnds(sep, init);
      var j := Join(sep, init);
      assert Join(sep, parts) == j + sep + parts[|parts| - 1];
      assert (j + sep + parts[|parts| - 1])[..|parts[0]|] == j[..|parts[0]|];
    }
  }

  /** Concatenation distributes over appending lists of parts. */
  lemma ConcatAppend(a: seq<string>, b: seq<string>)
    ensures Concat(a + b) == Concat(a) + Concat(b)
  {
    if |a| == 0 {
      assert a + b == b;
    } else if |b| == 0 {
      assert a + b == a;
    } else {
      JoinSplit("", a, b);
    }
  }

  /** Concatenating one character at a time rebuilds the string. */
  lemma {:induction false} ConcatChars(s: string)
    ensures Concat(seq(|s|, k requires 0 <= k < |s| => [s[k]])) == s
    decreases |s|
  {
    if |s| > 1 {
      var s' := s[..|s| - 1];
      ConcatChars(s');
      assert seq(|s|, k requires 0 <= k < |s| => [s[k]])[..|s| - 1]
          == seq(|s'|, k requires 0 <= k < |s'| => [s'[k]]);
    }
  }

  /** PHP `ltrim(s, c)` for a single character: drops every leading `c`. */
  function TrimLeading(s: string, c: char): (r: string)
    ensures |r| <= |s| && r == s[|s| - |r|..]
    ensures forall k :: 0 <= k < |s| - |r| ==> s[k] == c
    ensures r == [] || r[0] != c
  {
    if |s| > 0 && s[0] == c then TrimLeading(s[1..], c) else s
  }

  /** `s` is `r` with only trimmable characters before and after it, `r` starting at `a`. */
  ghost predicate TrimsTo(s: string, a: nat, r: string)
  {
    && a + |r| <= |s|
    && s[a..a + |r|] == r
    && TrimmedBetween(s, 0, a)
    && TrimmedBetween(s, a + |r|, |s|)
  }

  function TrimStartIndex(s: string, i: nat): (a: nat)
    requires i <= |s|
    ensures i <= a <= |s| && TrimmedBetween(s, i, a)
    ensures a < |s| ==> !IsTrimmed(s[a])
    decreases |s| - i
  {
    if i < |s| && IsTrimmed(s[i]) then TrimStartIndex(s, i + 1) else i
  }

  function TrimEndIndex(s: string, lo: nat, j: nat): (b: nat)
    requires lo <= j <= |s|
    ensures lo <= b <= j && TrimmedBetween(s, b, j)
    ensures b > lo ==> !IsTrimmed(s[b - 1])
    decreases j
  {
    if j > lo && IsTrimmed(s[j - 1]) then TrimEndIndex(s, lo, j - 1) else j
  }

  /** PHP `trim(s)`: `s` without its leading and trailing trimmable characters. */
  function Trim(s: string): (r: string)
    ensures r == [] || (!IsTrimmed(r[0]) && !IsTrimmed(r[|r| - 1]))
    ensures exists a :: TrimsTo(s, a, r)
  {
    var a := TrimStartIndex(s, 0);
    var b := TrimEndIndex(s, a, |s|);
    assert TrimsTo(s, a, s[a..b]);
    s[a..b]
  }

  /** The start index stops at the first character that is not trimmable. */
  lemma {:induction false} TrimStartStops(s: string, i: nat, k: nat)
    requires i <= k < |s| && TrimmedBetween(s, i, k) && !IsTrimmed(s[k])
    ensures TrimStartIndex(s, i) == k
    decreases k - i
  {
    if i < k {
      TrimStartStops(s, i + 1, k);
    }
  }

  /** The end index stops after the last character that is not trimmable. */
  lemma {:induction false} TrimEndStops(s: string, lo: nat, j: nat, k: nat)
    requires lo < k <= j <= |s| && TrimmedBetween(s, k, j) && !IsTrimmed(s[k - 1])
    ensures TrimEndIndex(s, lo, j) == k
    decreases j
  {
    if k < j {
      TrimEndStops(s, lo, j - 1, k);
    }
  }

  /** `trim` removes exactly the trimmable padding around a string that
      neither starts nor ends with a trimmable character. */
  lemma TrimStripsPadding(pre: string, s: string, post: string)
    requires forall k :: 0 <= k < |pre| ==> IsTrimmed(pre[k])
    requires forall k :: 0 <= k < |post| ==> IsTrimmed(post[k])
    requires s != [] && !IsTrimmed(s[0]) && !IsTrimmed(s[|s| - 1])
    ensures Trim(pre + s + post) == s
  {
    var x := pre + s + post;
    var a, b := |pre|, |pre| + |s|;
    assert x[a] == s[0] && x[b - 1] == s[|s| - 1];
    assert TrimmedBetween(x, 0, a) by {
      forall k | 0 <= k < a
        ensures IsTrimmed(x[k])
      {
        assert x[k] == pre[k];
      }
    }
    assert TrimmedBetween(x, b, |x|) by {
      forall k | b <= k < |x|
        ensures IsTrimmed(x[k])
      {
        assert x[k] == post[k - b];
      }
    }
    TrimStartStops(x, 0, a);
    TrimEndStops(x, a, |x|, b);
    assert x[a..b] == s;
  }
}

=== FILE: views.dfy ===
/** `render` and `resolveContent`: finding the template, and the top-level
    pass that parses it inside a synthetic `<div>`, applies attributes and
    renders only the wrapper's children. */
module Views {
  import opened Wrappers
  import opened Strings
  import opened Elements
  import opened Renderer
  import opened Application

  /** The locations `resolveContent` tries, in order: the path itself, then
      each discovery root joined with the original path. */
  function Candidates(r: ViewRenderer, path: string): (cs: seq<string>)
    ensures |cs| == |r.discoveryLocations| + 1 && cs[0] == path
    ensures forall k :: 0 <= k < |r.discoveryLocations| ==> cs[k + 1] == r.joinPath(r.discoveryLocations[k], path)
  {
    [path] + seq(|r.discoveryLocations|, k requires 0 <= k < |r.discoveryLocations| => r.joinPath(r.discoveryLocations[k], path))
  }

  /** The first existing candidate from position `i` on; when there is none,
      the error names the last candidate, the one the loop stopped on. */
  function FirstExisting(r: ViewRenderer, cs: seq<string>, i: nat): (res: Result<string, RenderError>)
    requires i < |cs|
    ensures res.Ok? <==> exists k :: i <= k < |cs| && r.fileExists(cs[k])
    ensures res.Ok? ==> exists k :: i <= k < |cs| && res.value == cs[k] && r.fileExists(cs[k])
                                  && forall j :: i <= j < k ==> !r.fileExists(cs[j])
    ensures res.Err? ==> res.error == ViewNotFound(cs[|cs| - 1])
    decreases |cs| - i
  {
    if r.fileExists(cs[i]) then Ok(cs[i])
    else if i + 1 == |cs| then Err(ViewNotFound(cs[i]))
    else FirstExisting(r, cs, i + 1)
  }

  /** The template file for a `.php` view path: the first candidate that
      exists, or an error naming the last candidate when none does. */
  function Locate(r: ViewRenderer, path: string): (res: Result<string, RenderError>)
    ensures res.Ok? <==> exists k :: 0 <= k < |Candidates(r, path)| && r.fileExists(Candidates(r, path)[k])
    ensures res.Ok? ==> exists k :: 0 <= k < |Candidates(r, path)| && res.value == Candidates(r, path)[k]
                                  && r.fileExists(res.value)
                                  && forall j :: 0 <= j < k ==> !r.fileExists(Candidates(r, path)[j])
    ensures res.Err? ==> res.error == ViewNotFound(Candidates(r, path)[|r.discoveryLocations|])
  {
    FirstExisting(r, Candidates(r, path), 0)
  }

  /** The search loop as the source writes it: while the current path does
      not exist and a discovery root is left, try that root joined with the
      original path; then fail if the last path tried does not exist. */
  method LocateTemplate(r: ViewRenderer, viewPath: string) returns (res: Result<string, RenderError>)
    ensures res == Locate(r, viewPath)
  {
    var cs := Candidates(r, viewPath);
    var path := viewPath;
    var i := 0;
    while !r.fileExists(path) && i < |r.discoveryLocations|
      invariant 0 <= i <= |r.discoveryLocations|
      invariant path == cs[i]
      invariant forall j :: 0 <= j < i ==> !r.fileExists(cs[j])
      decreases |r.discoveryLocations| - i
    {
      path := r.joinPath(r.discoveryLocations[i], viewPath);
      i := i + 1;
    }
    SkipsMissing(r, cs, 0, i);
    if !r.fileExists(path) {
      return Err(ViewNotFound(path));
    }
    return Ok(path);
  }

  /** Candidates known to be missing are skipped by the search. */
  lemma {:induction false} SkipsMissing(r: ViewRenderer, cs: seq<string>, i: nat, k: nat)
    requires i <= k < |cs|
    requires forall j :: i <= j < k ==> !r.fileExists(cs[j])
    ensures FirstExisting(r, cs, i) == FirstExisting(r, cs, k)
    decreases k - i
  {
    if i < k {
      assert !r.fileExists(cs[i]) && i + 1 < |cs|;
      SkipsMissing(r, cs, i + 1, k);
    }
  }

  /** `resolveContent`: a path not ending in `.php` is inline markup and is
      run as it stands; otherwise the first existing candidate is included. */
  function ResolveContent(r: ViewRenderer, v: View): (res: Result<string, RenderError>)
    ensures !EndsWith(v.path, ".php") ==> res == Ok(r.runInline(v.path))
    ensures EndsWith(v.path, ".php") ==>
              (res.Ok? <==> exists k :: 0 <= k < |Candidates(r, v.path)| && r.fileExists(Candidates(r, v.path)[k]))
    ensures EndsWith(v.path, ".php") && res.Err? ==> res.error == ViewNotFound(Candidates(r, v.path)[|r.discoveryLocations|])
    ensures EndsWith(v.path, ".php") && res.Ok? ==>
              Locate(r, v.path).Ok? && res.value == r.includeFile(Locate(r, v.path).value)
  {
    if !EndsWith(v.path, ".php") then Ok(r.runInline(v.path))
    else
      match Locate(r, v.path)
      case Ok(file) => Ok(r.includeFile(file))
      case Err(e) => Err(e)
  }

  /** `render`: no view renders as ''. Otherwise the content is parsed
      inside a `<div>`, attributes are applied to the resulting tree, and
      only the root's children are rendered, concatenated and trimmed. */
  function Render(r: ViewRenderer, view: Option<View>): (res: Result<string, RenderError>)
    ensures view.None? ==> res == Ok("")
    ensures res.Ok? ==> res.value == [] || (!IsTrimmed(res.value[0]) && !IsTrimmed(res.value[|res.value| - 1]))
    ensures view.Some? ==> (res.Err? <==> ResolveContent(r, view.value).Err?)
  {
    match view
    case None => Ok("")
    case Some(v) =>
      match ResolveContent(r, v)
      case Err(e) => Err(e)
      case Ok(contents) =>
        var root := ApplyAttributes(r, v, r.makeElement(v, "<div>" + contents + "</div>"));
        Ok(Trim(RenderElements(r, v, Children(root))))
  }

  /** The wrapper is never emitted: the parsed `<div>` carries no
      attributes, and the output is its children, each resolved, rendered
      back to back and trimmed. */
  lemma WrapperNotEmitted(r: ViewRenderer, v: View, contents: string, tag: string,
                          children: seq<Element>)
    requires ResolveContent(r, v) == Ok(contents)
    requires r.makeElement(v, "<div>" + contents + "</div>") == GenericElement(tag, [], children)
    ensures Render(r, Some(v)) == Ok(Trim(RenderElements(r, v, ApplyAll(r, v, children))))
  {
  }

  /** The text ` Hi ` is resolved to itself and rendered as it stands. */
  lemma HiText(r: ViewRenderer, v: View)
    ensures ApplyAll(r, v, [TextElement(" Hi ", map[])]) == [TextElement(" Hi ", map[])]
    ensures RenderElements(r, v, [TextElement(" Hi ", map[])]) == " Hi "
  {
    var text := TextElement(" Hi ", map[]);
    assert forall k :: 0 <= k < |" Hi "| - 1 ==> !(" Hi "[k] == '{' && " Hi "[k + 1] == '{') by {
      forall k | 0 <= k < |" Hi "| - 1
        ensures !(" Hi "[k] == '{' && " Hi "[k + 1] == '{')
      {
        assert k == 0 || k == 1 || k == 2;
      }
    }
    PlainTextUnchanged(r, v, " Hi ", map[]);
    assert RenderAll(r, v, [text]) == [" Hi "];
  }

  /** Trimming ` Hi ` leaves `Hi`. */
  lemma TrimHi()
    ensures Trim(" Hi ") == "Hi"
  {
    var s := " Hi ";
    assert IsTrimmed(s[0]) && !IsTrimmed(s[1]) && !IsTrimmed(s[2]) && IsTrimmed(s[3]);
    TrimStartStops(s, 0, 1);
    TrimEndStops(s, 1, 4, 3);
    assert s[1..3] == "Hi";
  }

  /** Rendered as an element of its own, a `<div>` holding ` Hi ` is
      written out with its tags. */
  lemma DivRendersTags(r: ViewRenderer, v: View)
    requires "div" !in r.viewComponents
    ensures RenderElement(r, v, GenericElement("div", [], [TextElement(" Hi ", map[])])) == "<div>" + " Hi " + "</div>"
  {
    HiText(r, v);
    UnregisteredTagRendersGeneric(r, v, GenericElement("div", [], [TextElement(" Hi ", map[])]));
    assert "<" + "div" + "" + ">" == "<div>";
  }

  /** ` Hi ` inside the wrapper renders as `Hi`, with no `<div>` around it
      (compare `DivRendersTags`). */
  lemma WrapperExample(r: ViewRenderer, v: View, contents: string)
    requires ResolveContent(r, v) == Ok(contents)
    requires r.makeElement(v, "<div>" + contents + "</div>") == GenericElement("div", [], [TextElement(" Hi ", map[])])
    ensures Render(r, Some(v)) == Ok("Hi")
  {
    HiText(r, v);
    WrapperNotEmitted(r, v, contents, "div", [TextElement(" Hi ", map[])]);
    TrimHi();
  }

  /** A `.php` view that no candidate location holds fails, naming the
      last candidate: the last discovery root joined with the view path, or
      the path itself when there are no roots. */
  lemma MissingTemplateFails(r: ViewRenderer, v: View)
    requires EndsWith(v.path, ".php")
    requires forall k :: 0 <= k < |Candidates(r, v.path)| ==> !r.fileExists(Candidates(r, v.path)[k])
    ensures Render(r, Some(v)) == Err(ViewNotFound(
              if r.discoveryLocations == [] then v.path
              else r.joinPath(r.discoveryLocations[|r.discoveryLocations| - 1], v.path)))
  {
  }

  /** The path itself wins over every discovery root when it exists. */
  lemma ExistingPathWins(r: ViewRenderer, path: string)
    requires r.fileExists(path)
    ensures Locate(r, path) == Ok(path)
  {
    var cs := Candidates(r, path);
    assert r.fileExists(cs[0]);
  }
}

=== FILE: wrappers.dfy ===
/** Failure-carrying values used across the model: PHP's nullable results
    become `Option`, thrown exceptions become the `Err` side of `Result`. */
module Wrappers {

  datatype Option<+T> = None | Some(value: T) {

    /** The PHP `$x ?? $default` of a nullable value. */
    function GetOr(default: T): T
    {
      match this
      case Some(v) => v
      case None => default
    }
  }

  datatype Result<+T, +E> = Ok(value: T) | Err(error: E)
}
